=== FILE: README.md ===
# Liquidi budgeting and wealth projection, modelled in Dafny

This project models the calculating core of Liquidi, a budgeting app with a wealth projection. Users enter expenses and income as items (once, weekly, monthly or yearly) grouped into categories. These form an expense block and an income block. Investments are one-time amounts or savings plans. From these the app computes the following:

- monthly totals, the paid-out investment yield and the savings rate (the finance context);
- the sorted items, category total and colour band of a category, and adding, editing and deleting items (the category block);
- the header total of a block, adding a category from a template, editing, deleting and drag-and-drop reordering (the main block);
- whether an edited investment is affordable: free liquid capital for one-time amounts, and for plans the number of months the free capital covers what exceeds the monthly surplus (the affordability validator);
- the year-by-year projection of liquid and invested wealth. It runs month-by-month funding in list order, partial when capital is short and capped by a plan's duration. Then come yearly returns, paid out or reinvested, and inflation on liquid capital, which is clamped at 0 (the simulator);
- the year-1 and full-period return summary. Its yearly loop is separate from the simulator's and simpler. The summary also drives the oak/squirrel picture;
- the analysis screen's savings-rate rating, the expense and income donut data, and the 32-bit string hash that picks each category's colour.

All amounts are exact `real`s, and `Math.floor` is `.Floor`. Clock readings are parameters (`stamp`, `id`), and so are the reinvest toggle map and the chart horizon. Every function is pure: an edit returns the new list, together with the validator's verdict where the screen computes one.

## Modules

One module per part of the program:

- `FinanceTypes`: the data model.
- `Cadence`: the weekly ×4.33 / yearly ÷12 rule and its one-time variants.
- `Budget`: the finance context.
- `Sorting` and `CategoryBlock`: the category block.
- `ListOps` and `MainBlock`: the main block.
- `Affordability`: the validator and investment edits.
- `Projection`: the simulator.
- `ReturnSummary`: the summary, the toggle map and the oak.
- `Analysis`: the analysis screen.
- `RealSums` and `Wrappers`: helpers.

## Behaviour modelled as written

The model follows the code as written, including:

- The one-time check subtracts the other one-time amounts twice (`Affordability.OneTimeCountsOthersTwice`).
- The summary's loop is not the simulator's loop. It uses weekly ×52, has no duration cap, no liquid check, no clamp and no one-time debit. Its reinvest rule reads only the toggle map.
- The full-period rate is the year-1 rate.
- A yearly plan whose duration is under 12 months never pays (`Projection.ShortYearlyPlanNeverPays`).
- Year 0 shows liquid capital clamped at 0, but year 1 continues from the unclamped value (`Projection.ClampOnlyReported`).

## Model

| member | source | states |
|---|---|---|
| `Cadence.ToMonthly` | src/data/FinanceContext.tsx:120-138 | the monthly figure is the frequency's factor (4.33, 1, 1/12, one-time 0 or 1) times the amount; non-negative for a non-negative amount |
| `Cadence.PolicyOnlyAffectsOneTime` | src/components/FinanceCategoryBlock.tsx:24-63 | skipping or keeping one-time amounts gives the same figure exactly when the item is not one-time or its amount is 0 |
| `Cadence.ToYearly` | src/screens/PrognoseScreen.tsx:354-365 | the summary's yearly contribution is 12 monthly figures for monthly and yearly plans, 12 monthly figures plus 0.04 weeks' worth for weekly ones (52 weeks, not 12 × 4.33), and 0 for one-time |
| `Cadence.ItemsTotalAppend` | src/data/FinanceContext.tsx:122-135 | an item total splits over concatenated item lists |
| `Cadence.ItemsTotal` | src/data/FinanceContext.tsx:122-135 | the monthly item total is non-negative for non-negative amounts; its value is pinned per item by `ItemsTotalAppend` and `KeepAddsOneTimeFace` |
| `Cadence.KeepAddsOneTimeFace` | src/components/MainCategoryBlock.tsx:133-148 | counting one-time items at face value adds exactly their face value to a list's monthly total |
| `Cadence.CategoriesTotalAppend` | src/data/FinanceContext.tsx:121-137 | a block total splits over concatenated category lists |
| `Cadence.CategoriesKeepAddsOneTimeFace` | src/components/MainCategoryBlock.tsx:134-147 | over whole categories the header-style total exceeds the monthly total by exactly the one-time face value |
| `Cadence.CategoriesTotal` | src/data/FinanceContext.tsx:121-137 | a block with no categories totals 0; non-negative amounts give a non-negative total |
| `Budget.MonthlyTotal` | src/data/FinanceContext.tsx:120-138 | the monthly total is the header-style total less the one-time face value, 0 for no categories |
| `Budget.MonthlyTotalAddCategory` | src/data/FinanceContext.tsx:121-137 | appending a category adds exactly its items' monthly total |
| `Budget.MonthlyInvestmentReturns` | src/data/FinanceContext.tsx:144-159 | the yield is 0 when no investment has reinvesting explicitly off, and non-negative when those that pay out have non-negative amounts and rates |
| `Budget.ReturnsOnlyFromPayingOut` | src/data/FinanceContext.tsx:147-157 | dropping every investment whose flag is true or absent leaves the yield unchanged |
| `Budget.ReturnsFirst` | src/data/FinanceContext.tsx:144-158 | each investment contributes amount × rate / 100 / 12 exactly when its flag is false, and nothing otherwise |
| `Budget.ReturnsAppend` | src/data/FinanceContext.tsx:144-158 | the paid-out yield of two investment lists one after the other is the sum of their yields |
| `Budget.MonthlySavings` | src/screens/PrognoseScreen.tsx:76-77 | the savings rate of the analysis screen is exactly the rate at which income with returns leaves this monthly surplus (rate × income = surplus × 100); with no income and no returns the surplus is minus the expenses |
| `Budget.SavingsRate` | src/data/FinanceContext.tsx:161-173 | 0 for zero income with returns; otherwise rate × income = surplus × 100, at most 100 for non-negative expenses, and for positive income negative exactly when expenses exceed it |
| `Budget.RateOf` | src/data/FinanceContext.tsx:167-172 | the same four rate properties over plain income and expense figures |
| `CategoryBlock.SortKey` | src/components/FinanceCategoryBlock.tsx:24-42 | the sort key equals the sum key except for one-time items, which keep their full amount |
| `CategoryBlock.SumKey` | src/components/FinanceCategoryBlock.tsx:45-63 | the sum key is the frequency factor times the amount, 0 for one-time items |
| `CategoryBlock.SortedItems` | src/components/FinanceCategoryBlock.tsx:66-72 | the displayed list is a permutation of the items, non-increasing by sort key, and items with equal sort keys keep their entry order (JavaScript's sort is stable) |
| `Sorting.SortDesc` | src/components/FinanceCategoryBlock.tsx:66-72 | the descending sort returns a permutation of its input of the same length, keys non-increasing |
| `Sorting.InsertDesc` | src/components/FinanceCategoryBlock.tsx:66-72 | inserting into a non-increasing list adds exactly that element and keeps the keys non-increasing |
| `Sorting.InsertKeepsTies` | src/components/FinanceCategoryBlock.tsx:66-72 | within each group of equal keys the inserted element comes first and the list's own elements follow in their order |
| `Sorting.SortKeepsTies` | src/components/FinanceCategoryBlock.tsx:66-72 | the sort is stable: for every key, the elements with that key appear in the same order as in the input |
| `CategoryBlock.CategoryTotal` | src/components/FinanceCategoryBlock.tsx:75-79 | the category total is the sum of its items' sum keys |
| `CategoryBlock.TotalIsSumOfKeys` | src/components/FinanceCategoryBlock.tsx:75-79 | the monthly item total (the context's rule) equals the sum of the block's sum keys |
| `CategoryBlock.InsertKeepsTotal` | src/components/FinanceCategoryBlock.tsx:66-72 | inserting an item into the sorted list adds exactly its monthly figure to any total |
| `CategoryBlock.SortKeepsTotal` | src/components/FinanceCategoryBlock.tsx:66-79 | sorting for display leaves every monthly total of the items unchanged |
| `CategoryBlock.SortedTotal` | src/components/FinanceCategoryBlock.tsx:66-79 | the sorted items sum to the category total |
| `CategoryBlock.Band` | src/components/FinanceCategoryBlock.tsx:81-95 | three bands: band 0 exactly below 500, band 2 exactly from 1000 on |
| `CategoryBlock.HeaderColor` | src/components/FinanceCategoryBlock.tsx:81-95 | the header colour is the band's shade in the palette of the block's kind |
| `CategoryBlock.ItemColor` | src/components/FinanceCategoryBlock.tsx:97-111 | the item colour is one shade darker than the header colour in the same palette |
| `CategoryBlock.AddItem` | src/components/FinanceCategoryBlock.tsx:117-128 | exactly one item is appended (given id, amount 0, monthly); the old items and the category total are unchanged |
| `CategoryBlock.UpdateItem` | src/components/FinanceCategoryBlock.tsx:130-137 | exactly the items with the id are replaced, length and order kept |
| `CategoryBlock.UpdateItemIdempotent` | src/components/FinanceCategoryBlock.tsx:130-137 | repeating an item update changes nothing |
| `CategoryBlock.DeleteItem` | src/components/FinanceCategoryBlock.tsx:139-144 | no item with the id remains and every other item keeps its multiplicity; with no such item the list is unchanged, and with exactly one the rest stay in their order |
| `CategoryBlock.DeleteUndoesAdd` | src/components/FinanceCategoryBlock.tsx:117-144 | deleting a freshly added item with a new id restores the category |
| `CategoryBlock.DeleteSplitsTotal` | src/components/FinanceCategoryBlock.tsx:139-144 | the total before deletion is the total kept plus the total of the deleted items |
| `CategoryBlock.LastSplitsTotal` | src/components/FinanceCategoryBlock.tsx:139-144 | a single item's figure goes wholly to the kept part or wholly to the deleted part |
| `ListOps.ReplaceWhere` | src/components/FinanceCategoryBlock.tsx:133-135 | the mapped list has the same length, with exactly the matching elements replaced |
| `ListOps.Filter` | src/components/FinanceCategoryBlock.tsx:142 | every kept element passes the test and comes from the input, and every input element that passes is kept |
| `ListOps.FilterAppend` | src/components/MainCategoryBlock.tsx:182-187 | filtering distributes over concatenation |
| `ListOps.FilterMultiset` | src/components/MainCategoryBlock.tsx:182-187 | filtering keeps each passing element with its multiplicity and drops every other one |
| `ListOps.FilterAllKept` | src/components/MainCategoryBlock.tsx:182-187 | filtering a list whose elements all pass returns it unchanged |
| `ListOps.FilterDropsOne` | src/components/FinanceCategoryBlock.tsx:139-144 | filtering out the one element that fails leaves exactly the others, in their order |
| `ListOps.Move` | src/components/MainCategoryBlock.tsx:109 | the element at `from` lands at `to`; the elements before both and after both stay; the ones in between shift by one toward `from` |
| `ListOps.MovePermutes` | src/components/MainCategoryBlock.tsx:109 | a move is a permutation |
| `ListOps.MoveBack` | src/components/MainCategoryBlock.tsx:109 | moving from `to` back to `from` undoes a move |
| `MainBlock.HeaderTotal` | src/components/MainCategoryBlock.tsx:133-148 | the header total is the block's monthly total plus the face value of its one-time items |
| `MainBlock.IndexOfId` | src/components/MainCategoryBlock.tsx:106-107 | the result is the first position holding the id, or -1 exactly when no category has it |
| `MainBlock.DragEnd` | src/components/MainCategoryBlock.tsx:102-115 | no target or dropped on itself changes nothing; otherwise a permutation of the same kind and length that puts the dragged category at the target's index |
| `MainBlock.DragBack` | src/components/MainCategoryBlock.tsx:102-115 | moving from the target index back to the dragged index restores the original order |
| `MainBlock.NatToString` | src/components/MainCategoryBlock.tsx:158 | an item index prints as a non-empty string of decimal digits |
| `MainBlock.NatToStringRoundTrip` | src/components/MainCategoryBlock.tsx:158 | reading the printed digits back as a decimal number gives the index again |
| `MainBlock.NatToStringInjective` | src/components/MainCategoryBlock.tsx:158 | different indices print as different strings |
| `MainBlock.TemplateIdsDistinct` | src/components/MainCategoryBlock.tsx:157-158 | the ids `stamp-i` and `stamp-j` differ for different indices |
| `MainBlock.AddCategory` | src/components/MainCategoryBlock.tsx:150-171 | one expanded category is appended whose items match the template names one to one, each with id `stamp-index`, amount 0 and monthly, and no two with the same id; the rest and the monthly total are unchanged |
| `MainBlock.ZeroItemsTotal` | src/components/MainCategoryBlock.tsx:158-163 | items of amount 0 total 0 |
| `MainBlock.UpdateCategory` | src/components/MainCategoryBlock.tsx:173-180 | exactly the categories with the id are replaced, kind, length and order kept |
| `MainBlock.DeleteCategory` | src/components/MainCategoryBlock.tsx:182-187 | no category with the id remains and every other one keeps its multiplicity; with no such category the block is unchanged, and with exactly one the rest stay in their order |
| `MainBlock.DeleteUndoesAdd` | src/components/MainCategoryBlock.tsx:150-187 | deleting a freshly added category with a new id restores the block |
| `Affordability.OneTimeTotal` | src/screens/PrognoseScreen.tsx:84-90 | non-negative amounts give a non-negative one-time total |
| `Affordability.OtherOneTime` | src/screens/PrognoseScreen.tsx:155-159 | for an id no investment has, the other one-time amounts are all one-time amounts |
| `Affordability.AvailableLiquid` | src/screens/PrognoseScreen.tsx:81-91 | free capital plus the one-time total is current plus liquid assets, and with non-negative amounts it is at most that |
| `Affordability.MonthlyInvestments` | src/screens/PrognoseScreen.tsx:94-113 | non-negative amounts give a non-negative monthly flow into the plans |
| `Affordability.OtherMonthlyOfFreshId` | src/screens/PrognoseScreen.tsx:131-138 | for an id no investment has, the other plans' flow is the whole monthly flow |
| `Affordability.MonthlyOfUniquePlan` | src/screens/PrognoseScreen.tsx:94-113 | a plan whose id is unique adds exactly its own monthly figure (amount, ×4.33, ÷12, or 0 for one-time) to the other plans' flow |
| `Affordability.MaxDuration` | src/screens/PrognoseScreen.tsx:120-149 | absent for one-time amounts; for plans absent exactly when there is no overage; otherwise the months n ≥ 0 with n × overage ≤ free capital < (n+1) × overage, and 0 when the capital is below one month's overage |
| `Affordability.FloorCapacity` | src/screens/PrognoseScreen.tsx:147-148 | `floor(a / o)` is the largest count whose multiple of `o` fits in `a` |
| `Affordability.RequestedDuration` | src/screens/PrognoseScreen.tsx:188 | the argument duration if non-zero, else the stored duration if non-zero, else the horizon in months |
| `Affordability.ValidateInvestment` | src/screens/PrognoseScreen.tsx:152-200 | one-time: invalid exactly when the amount exceeds free capital less the other one-time amounts, reporting that room clamped at 0; plan: valid without overage, else invalid exactly when the requested duration exceeds `max(0, floor(free / overage))`, reporting both |
| `Affordability.LoneOneTimeCheck` | src/screens/PrognoseScreen.tsx:153-166 | with no other one-time investment, a one-time amount is valid exactly when it fits in the free capital |
| `Affordability.NoOtherOneTime` | src/screens/PrognoseScreen.tsx:155-159 | with no other one-time investment, the other one-time amounts sum to 0 |
| `Affordability.LongerNeverHelps` | src/screens/PrognoseScreen.tsx:185-194 | a plan refused for one duration is refused for every longer one |
| `Affordability.OneTimeCountsOthersTwice` | src/screens/PrognoseScreen.tsx:86-90 | with 1000 free and another 500 committed, raising an investment from 0 to 500 is refused with room 0 |
| `Affordability.ZeroDurationFallsThrough` | src/screens/PrognoseScreen.tsx:188 | a duration of 0 falls through to the stored duration, then to the horizon |
| `Affordability.TwelveMonthsOfOverage` | src/screens/PrognoseScreen.tsx:140-148 | an overage of 50 against 600 free gives 12 months: 12 pass, 13 are refused as (13, 12) |
| `Affordability.FindById` | src/screens/PrognoseScreen.tsx:221 | found exactly when some investment has the id; the found one has it and no earlier investment does |
| `Affordability.UpdateInvestment` | src/screens/PrognoseScreen.tsx:218-246 | every investment with the id gets the new amount or rate, the rest are unchanged; an amount edit of an existing investment is validated with its stored duration, and no other edit is |
| `Affordability.ValidationIsSoft` | src/screens/PrognoseScreen.tsx:218-246 | the edited list depends on neither the assets nor the savings the verdict depends on |
| `Affordability.UpdateDuration` | src/screens/PrognoseScreen.tsx:248-270 | the duration is set on exactly the matching investments, validated with the stored amount and the new duration |
| `Affordability.UpdateFrequency` | src/screens/PrognoseScreen.tsx:282-307 | the frequency is set on exactly the matching investments, validated as if the investment already had it, with no duration argument |
| `Projection.Compounded` | src/screens/PrognoseScreen.tsx:541-544 | a kept return adds the balance's percentage to it |
| `Projection.Reinvests` | src/screens/PrognoseScreen.tsx:554 | a present toggle decides; without one the investment reinvests unless its flag is explicitly false |
| `Projection.InitialState` | src/screens/PrognoseScreen.tsx:478-487 | one-time investments start at their amount, which leaves liquid capital; plans start at 0 with no month elapsed; the balances sum to the one-time total |
| `Projection.MonthlyContribution` | src/screens/PrognoseScreen.tsx:509-520 | a yearly plan pays only in month 12; other plans pay their monthly figure; non-negative for a non-negative amount |
| `Projection.FundOne` | src/screens/PrognoseScreen.tsx:502-533 | liquid plus invested is unchanged; an idle plan changes nothing; an active one counts a month and takes its contribution, or the positive rest of liquid capital; no other position changes |
| `Projection.FundFrom` | src/screens/PrognoseScreen.tsx:501-534 | a month's funding keeps liquid plus invested |
| `Projection.FundFromCounts` | src/screens/PrognoseScreen.tsx:501-534 | a month advances each active plan's counter by one, even when it pays nothing, and no other counter |
| `Projection.FundFromBalances` | src/screens/PrognoseScreen.tsx:501-534 | idle or non-paying plans keep their balance; with non-negative amounts no balance falls |
| `Projection.FundFromLiquid` | src/screens/PrognoseScreen.tsx:522-532 | funding never takes non-negative liquid capital below 0 |
| `Projection.CountAfter` | src/screens/PrognoseScreen.tsx:504-532 | after k months the counter has risen by k for an unlimited plan, up to the duration for a capped one, and not at all for an idle one |
| `Projection.FundMonths` | src/screens/PrognoseScreen.tsx:500-535 | twelve months of funding keep liquid plus invested |
| `Projection.FundMonthsCounts` | src/screens/PrognoseScreen.tsx:500-535 | over the rest of the year every counter advances as CountAfter says |
| `Projection.FundMonthsBalances` | src/screens/PrognoseScreen.tsx:500-535 | over the rest of the year an idle plan's balance is untouched; with non-negative amounts no balance falls |
| `Projection.MonthCounts` | src/screens/PrognoseScreen.tsx:500-535 | one month's counter step followed by the rest of the year is CountAfter over both |
| `Projection.ReturnOne` | src/screens/PrognoseScreen.tsx:539-565 | a reinvesting balance compounds, a paying-out one stays; liquid plus invested grows by exactly that return; nothing else changes |
| `Projection.ReturnsFrom` | src/screens/PrognoseScreen.tsx:549-565 | the return step never touches the month counters |
| `Projection.ReturnsFromBalances` | src/screens/PrognoseScreen.tsx:539-565 | from a position on, balances compound or stay by the reinvest rule; earlier ones are untouched |
| `Projection.ReturnsFromTotal` | src/screens/PrognoseScreen.tsx:539-565 | from a position on, liquid plus invested grows by exactly those positions' returns |
| `Projection.ReturnStep` | src/screens/PrognoseScreen.tsx:539-565 | reinvesting balances compound, paying-out ones stay, and liquid plus invested grows by exactly the sum of the returns |
| `Projection.YearStep` | src/screens/PrognoseScreen.tsx:495-571 | a year keeps the state's shape and ends with liquid capital at or above 0 |
| `Projection.InflationOnLiquidOnly` | src/screens/PrognoseScreen.tsx:566-570 | inflation leaves balances and counters as they are without it, and (up to 100 %) shrinks the inflation-free liquid capital by its rate before the clamp at 0 |
| `Projection.Deflate` | src/screens/PrognoseScreen.tsx:567 | inflation takes exactly its percentage of liquid capital, so for a rate within 0..100 non-negative capital stays between 0 and itself |
| `Projection.YearCounts` | src/screens/PrognoseScreen.tsx:499-535 | over a year every counter advances as CountAfter over 12 months |
| `Projection.DurationCap` | src/screens/PrognoseScreen.tsx:504-507 | a plan idle at the start of a year (one-time or past its duration) receives nothing; its balance changes only by a reinvested return |
| `Projection.CapReached` | src/screens/PrognoseScreen.tsx:504 | an absent or zero duration never caps a plan; any other duration caps it once that many months have elapsed |
| `Projection.IdleBalances` | src/screens/PrognoseScreen.tsx:504-565 | a plan idle all year changes only by its reinvested return |
| `Projection.Project` | src/screens/PrognoseScreen.tsx:495-576 | one sample per year from `year` to `last`, numbered in order, each with liquid capital at or above 0 |
| `Projection.CalculatePrognose` | src/screens/PrognoseScreen.tsx:466-578 | `max(0, yearsToProject) + 1` samples numbered 0, 1, …, every liquid value ≥ 0; year 0 is exactly the sample (0, max(0, liquid − one-time total), one-time total) |
| `Projection.YearlyCapBeforeDecember` | src/screens/PrognoseScreen.tsx:504-520 | a yearly plan whose counter reaches its duration before month 12 receives nothing in the rest of the year |
| `Projection.ShortYearlyPlanNeverPays` | src/screens/PrognoseScreen.tsx:504-532 | a yearly plan whose duration ends before this year's month 12 contributes nothing even with ample capital; its balance changes only by a reinvested return |
| `Projection.YearStepGrowth` | src/screens/PrognoseScreen.tsx:495-571 | without inflation, with non-negative savings, amounts and rates, a year keeps balances non-negative and its total is at least the clamped liquid capital plus the balances it started from |
| `Projection.FundingNeverShrinks` | src/screens/PrognoseScreen.tsx:500-535 | with non-negative amounts, funding keeps balances non-negative and never lowers their sum |
| `Projection.ReturnsNeverShrink` | src/screens/PrognoseScreen.tsx:539-565 | with non-negative balances and rates the return step lowers neither the invested sum nor liquid plus invested |
| `Projection.PrependNeverFalls` | src/screens/PrognoseScreen.tsx:572-575 | a first sample no larger than every later one keeps a non-falling series non-falling |
| `Projection.ProjectGrowth` | src/screens/PrognoseScreen.tsx:495-576 | under the growth conditions every later sample's total is at least the starting capital, and totals never fall |
| `Projection.NeverFallsPairwise` | src/screens/PrognoseScreen.tsx:572-575 | the recursive "totals never fall" predicate holds exactly when no sample's total (liquid plus invested) is below an earlier sample's |
| `Projection.TotalNeverFalls` | src/screens/PrognoseScreen.tsx:466-578 | without inflation, with non-negative savings, amounts and rates, no year's total (liquid plus invested) is below an earlier year's |
| `Projection.OneTimeScenario` | src/screens/PrognoseScreen.tsx:466-578 | a single reinvesting one-time investment of all liquid capital leaves liquid at 0 and compounds once in year 1 |
| `Projection.OneTimeScenarioExample` | src/screens/PrognoseScreen.tsx:466-578 | the worked figures: 500 at 10 % gives year 0 (0, 500) and year 1 (0, 550) |
| `Projection.SavingsOnlyScenario` | src/screens/PrognoseScreen.tsx:466-578 | with no investments and no inflation, 1000 liquid and 100 saved a month give 1000, 2200, 3400, 4600 over three years |
| `Projection.ClampOnlyReported` | src/screens/PrognoseScreen.tsx:482-497 | year 0 shows clamped liquid capital but year 1 continues from the unclamped value: 1000 invested out of no liquid capital, then 100 saved a month, gives liquid 0 in year 0 and 200 (not 1200) in year 1 |
| `ReturnSummary.PaidIn` | src/screens/PrognoseScreen.tsx:354-365 | each balance grows by its yearly contribution, and the balances' sum by the sum of all contributions |
| `ReturnSummary.StartAmounts` | src/screens/PrognoseScreen.tsx:338-344 | the summary loop starts each one-time investment at its amount and each recurring one at 0 |
| `ReturnSummary.Contributions` | src/screens/PrognoseScreen.tsx:354-365 | each investment's yearly contribution is 12 × monthly, 52 × weekly, the yearly amount, or 0 for one-time |
| `ReturnSummary.Kept` | src/screens/PrognoseScreen.tsx:371-394 | a balance compounds exactly when its toggle is present and true; the sum grows by all returns less the paid-out ones |
| `ReturnSummary.PayOuts` | src/screens/PrognoseScreen.tsx:381-394 | a return moves to liquid capital exactly when it is non-zero and the summary does not reinvest |
| `ReturnSummary.YearOnce` | src/screens/PrognoseScreen.tsx:350-403 | the nominal sum grows by the year's returns on the paid-in balances; liquid plus loss changes by savings less contributions plus payouts, of which the year's loss is the inflation rate's share; each balance is its contribution paid in, compounded exactly when the summary reinvests |
| `ReturnSummary.Period` | src/screens/PrognoseScreen.tsx:349-404 | without inflation the loop loses nothing |
| `ReturnSummary.CalculateReturns` | src/screens/PrognoseScreen.tsx:326-430 | year 1 (`Year1Nominal`) reports the entered amounts' returns and the inflation loss on liquid assets; real = nominal − loss for both figures; the full-period rate is the year-1 rate (`RealRate`); with nothing invested the rate is −inflation, and with a positive invested total Σ it is nominal/Σ × 100 − inflation |
| `ReturnSummary.YearAccounts` | src/screens/PrognoseScreen.tsx:350-403 | a year of the loop changes liquid plus balances plus loss less returns by exactly the savings |
| `ReturnSummary.PeriodAccounts` | src/screens/PrognoseScreen.tsx:349-404 | over the whole loop that capital changes by exactly the savings of every year |
| `ReturnSummary.Repeated` | src/screens/PrognoseScreen.tsx:349 | a figure added once per year is years × figure, none for no years |
| `ReturnSummary.PeriodIgnoresLiquid` | src/screens/PrognoseScreen.tsx:349-404 | balances and the nominal sum never depend on liquid capital, savings or inflation |
| `ReturnSummary.NominalIgnoresLiquidity` | src/screens/PrognoseScreen.tsx:326-430 | both nominal returns are the same for any liquid assets, savings and inflation rate |
| `ReturnSummary.NoYearsNoFullPeriod` | src/screens/PrognoseScreen.tsx:346-409 | without years to project the full-period figures are 0 |
| `ReturnSummary.NoInflationNoLoss` | src/screens/PrognoseScreen.tsx:333-335 | without inflation nothing is lost, and real equals nominal in both figures |
| `ReturnSummary.PeriodSteady` | src/screens/PrognoseScreen.tsx:349-404 | with one-time amounts that pay out only, balances stay at the entered amounts and each year earns the year-1 return |
| `ReturnSummary.SteadyPayout` | src/screens/PrognoseScreen.tsx:328-404 | then the full-period nominal return is the year-1 return once per year |
| `ReturnSummary.UniformRate` | src/screens/PrognoseScreen.tsx:412-427 | when every investment earns the same rate and something is invested, both reported rates are that rate less inflation |
| `ReturnSummary.SameStartBalances` | src/screens/PrognoseScreen.tsx:339-344 | the summary's loop and the simulator start from the same balances |
| `ReturnSummary.SyncToggles` | src/screens/PrognoseScreen.tsx:49-56 | the synced map has exactly one entry per investment id |
| `ReturnSummary.SyncKeepsDecisions` | src/screens/PrognoseScreen.tsx:49-56 | for distinct ids each entry is `previous[id] ?? reinvestEnabled ?? true` |
| `ReturnSummary.SyncedRulesAgree` | src/screens/PrognoseScreen.tsx:49-56 | after a sync the summary's and the simulator's reinvest rules agree, and for distinct ids both keep the earlier decision |
| `ReturnSummary.MissingToggleRules` | src/screens/PrognoseScreen.tsx:386 | without a toggle the summary pays out, while the simulator reinvests unless the flag is explicitly false |
| `ReturnSummary.SummaryReinvests` | src/screens/PrognoseScreen.tsx:386 | the summary reinvests exactly when a toggle is present and the simulator's rule reinvests |
| `ReturnSummary.ToggleReinvestment` | src/screens/PrognoseScreen.tsx:59-74 | the clicked toggle becomes the negation of its truthiness, other toggles stay, and the same value is stored as the flag of exactly the matching investments |
| `ReturnSummary.ToggleFlipsDecision` | src/screens/PrognoseScreen.tsx:59-74 | a click flips the summary's decision for the investment, and both rules, and the stored flag, agree on it afterwards |
| `ReturnSummary.ToggleTwice` | src/screens/PrognoseScreen.tsx:59-65 | two clicks on a present toggle restore the toggle map |
| `ReturnSummary.OakStage` | src/screens/PrognoseScreen.tsx:435-452 | squirrel exactly when the real rate is ≤ 0; healthy exactly from 1 percent; for a positive rate the oak stage is 1, 2 and 3 for horizons of 1, 5 and 10 years and 4 for any other |
| `ReturnSummary.OakSeparates` | src/screens/PrognoseScreen.tsx:435-452 | for a positive rate the stage depends only on the horizon and grows with it, and health depends only on the rate |
| `Analysis.SavingsRatingInfo` | src/screens/AnalysisScreen.tsx:18-55 | five bands, Defizit below 0, Kritisch below 3, Okay below 8, Gut below 15, Top otherwise, each exactly; the tone per band: expense accent for Defizit and Kritisch (so exactly below 3), accent for Okay, income accent for Gut, income dark for Top |
| `Analysis.RatingMonotone` | src/screens/AnalysisScreen.tsx:18-55 | a higher savings rate never gets a worse rating |
| `Analysis.ToInt32` | src/screens/AnalysisScreen.tsx:138 | the 32-bit value lies in the signed range and is congruent to its input modulo 2^32 |
| `Analysis.ToInt32Congruent` | src/screens/AnalysisScreen.tsx:137-138 | congruent integers have the same 32-bit value |
| `Analysis.HashStepIsTimes31` | src/screens/AnalysisScreen.tsx:137-138 | a round of shift-and-subtract (`HashStep`) is multiplication by 31 plus the character code, in 32 bits |
| `Analysis.StringHash` | src/screens/AnalysisScreen.tsx:135-139 | the hash stays in the signed 32-bit range |
| `Analysis.StringHashIsPolyHash` | src/screens/AnalysisScreen.tsx:135-139 | the hash is the polynomial hash (codes times powers of 31) reduced to 32 bits |
| `Analysis.ColorIndex` | src/screens/AnalysisScreen.tsx:157 | the index is the hash's absolute value modulo 12, always within 0..11 |
| `Analysis.RandomColor` | src/screens/AnalysisScreen.tsx:133-178 | income seeds get an income palette colour, expense seeds an expense palette colour |
| `Analysis.PositiveDescending` | src/screens/AnalysisScreen.tsx:83-84 | positive entries only, largest first, equal amounts in input order, and exactly the positive input entries with their multiplicity |
| `Analysis.CategoryEntries` | src/screens/AnalysisScreen.tsx:58-82 | one entry per category, in order, with the category's name, its monthly item total (one-time items as 0) and the name's colour in the block's palette (income or expense) |
| `Analysis.PieChartData` | src/screens/AnalysisScreen.tsx:57-87 | the expense donut holds exactly the categories with a positive total, largest first, and entries of equal amount keep their category order |
| `Analysis.IncomeChartData` | src/screens/AnalysisScreen.tsx:89-131 | the investment-returns entry (`ReturnsEntry`: its label, the yield, the label's income colour) is present exactly when the paid-out yield is positive, and then exactly once; every other entry is a positive income category with its multiplicity; largest first, and entries of equal amount keep their order of insertion |
| `Analysis.IncomeEntries` | src/screens/AnalysisScreen.tsx:90-126 | the unfiltered income entries: the categories in order, then one returns entry when the paid-out yield is positive |
| `Analysis.IncomeChartContents` | src/screens/AnalysisScreen.tsx:116-130 | after filtering and sorting, the returns entry occurs once when the yield is positive and never otherwise, and each category entry with a positive amount keeps its multiplicity |
| `RealSums.SumAppend` | src/data/FinanceContext.tsx:121-137 | a sum splits over concatenation |
| `RealSums.SumUpdate` | src/screens/PrognoseScreen.tsx:522-532 | changing one entry changes the sum by the difference |
| `RealSums.SumMonotone` | src/screens/PrognoseScreen.tsx:572-575 | pointwise larger sequences have larger sums |
| `RealSums.SumScale` | src/screens/PrognoseScreen.tsx:412-413 | scaling every entry scales the sum |
| `RealSums.SumMinus` | src/screens/PrognoseScreen.tsx:371-394 | a pointwise difference sums to the difference of the sums |

## Left out

- Rendering, layout, styles, the chart, donut, oak, acorn and coin components, the overview and donation screens: presentation with nothing to compute.
- Persistence (the storage wrapper, JSON load and save) and the layout-rewriting script: I/O.
- `parseFloat`/`parseInt` coercions of text input, `toFixed`, `Math.round` and logging: the model's inputs are already numbers and its outputs are not formatted.
- Floating point: every amount is an exact `real`, so rounding, `NaN` and infinities are not modelled. In particular a paid-out return `(a + ret) - ret` is exactly `a` here.
- `yearsToProject` and the chart horizon are integers here; the source compares them as numbers, so a fractional horizon is not modelled.
- The per-id maps of the simulator and the summary (balances, month counters) are kept per position of the investment list. For distinct ids this is the same; duplicate ids, which the source would merge into one entry, are not modelled.
- React state: the toggle map is an explicit `map` parameter; the validation-error map, the menus and the effect's trigger (the investment count) are not modelled, and `SyncToggles` stands for the effect's body.
- `Date.now()`: ids are parameters. `MainBlock.AddCategory` uses one clock reading for the category and its items, where the source reads the clock once per id; the distinct item ids it proves rest on the `-index` suffix under that one reading.
- `MainBlock.AddCategory` takes the template itself, not its index into the static template lists, which are configuration.
- `MainBlock.DragEnd` requires the dragged and target ids to be category ids, since the drag-and-drop library reports only the ids of the sortable categories; its `arrayMove` is specified as remove-at-old, insert-at-new (`ListOps.Move`).
- The string hash reads `charCodeAt` as the character's code, which matches for characters inside the Basic Multilingual Plane only.
- The rating messages and range texts of the analysis screen, the colour of the real return figure and the investment-name, add and delete handlers of the prognosis screen: text and plain list edits with no computation beyond what is modelled.
- The investment fields `amountType` and `percentageAmount`: no modelled computation reads them.
- `Projection.YearStep`: its contract states only shape and the clamp. What a year does is stated by lemmas: `Projection.YearCounts` for counters, `Projection.DurationCap` and `Projection.ShortYearlyPlanNeverPays` for what plans receive, `Projection.InflationOnLiquidOnly` for the inflation step, and `Projection.YearStepGrowth` for totals without inflation.
- `ReturnSummary.Period`: its contract states only shape and the no-inflation case; its accounting is stated by `ReturnSummary.PeriodAccounts`, `ReturnSummary.PeriodIgnoresLiquid` and `ReturnSummary.PeriodSteady`.

=== FILE: affordability.dfy ===
/**
 * The affordability validator of the projection screen: how much liquid
 * capital is free, how much already flows into savings plans each month,
 * how long a recurring plan can be funded, and whether an edited investment
 * is affordable. Validation is soft: the edit is applied whatever the verdict.
 */
module Affordability {
  import opened Wrappers
  import opened FinanceTypes
  import opened Cadence
  import opened RealSums

  /** The face value of all one-time investments. */
  function OneTimeTotal(invs: seq<Investment>): (r: real)
    ensures (forall i :: 0 <= i < |invs| ==> invs[i].amount >= 0.0) ==> r >= 0.0
    decreases |invs|
  {
    if |invs| == 0 then 0.0
    else
      var last := invs[|invs| - 1];
      OneTimeTotal(invs[..|invs| - 1]) + (if last.frequency == OneTime then last.amount else 0.0)
  }

  /** The face value of the one-time investments whose id is not `id`. */
  function OtherOneTime(invs: seq<Investment>, id: string): (r: real)
    ensures (forall i :: 0 <= i < |invs| ==> invs[i].id != id) ==> r == OneTimeTotal(invs)
    decreases |invs|
  {
    if |invs| == 0 then 0.0
    else
      var last := invs[|invs| - 1];
      OtherOneTime(invs[..|invs| - 1], id) + (if last.frequency == OneTime && last.id != id then last.amount else 0.0)
  }

  /**
   * Starting capital (current plus liquid assets) minus everything already
   * committed to one-time investments.
   */
  function AvailableLiquid(data: PrognoseData): (r: real)
    ensures r + OneTimeTotal(data.investments) == data.currentAssets + data.liquidAssets
    ensures (forall i :: 0 <= i < |data.investments| ==> data.investments[i].amount >= 0.0) ==>
              r <= data.currentAssets + data.liquidAssets
  {
    var startingLiquid := data.currentAssets + data.liquidAssets;
    startingLiquid - OneTimeTotal(data.investments)
  }

  /** The monthly flow into all savings plans (one-time investments count 0). */
  function MonthlyInvestments(invs: seq<Investment>): (r: real)
    ensures (forall i :: 0 <= i < |invs| ==> invs[i].amount >= 0.0) ==> r >= 0.0
    decreases |invs|
  {
    if |invs| == 0 then 0.0
    else
      var last := invs[|invs| - 1];
      MonthlyInvestments(invs[..|invs| - 1]) + ToMonthly(last.amount, last.frequency, SkipOneTime)
  }

  /** The monthly flow into the savings plans other than the one with id `id`. */
  function OtherMonthly(invs: seq<Investment>, id: string): (r: real)
    decreases |invs|
  {
    if |invs| == 0 then 0.0
    else
      var last := invs[|invs| - 1];
      OtherMonthly(invs[..|invs| - 1], id)
        + (if last.id != id && last.frequency != OneTime then ToMonthly(last.amount, last.frequency, SkipOneTime) else 0.0)
  }

  /** For an id not in the list, the other plans are all plans. */
  lemma {:induction false} OtherMonthlyOfFreshId(invs: seq<Investment>, id: string)
    requires forall i :: 0 <= i < |invs| ==> invs[i].id != id
    ensures OtherMonthly(invs, id) == MonthlyInvestments(invs)
    decreases |invs|
  {
    if |invs| > 0 {
      OtherMonthlyOfFreshId(invs[..|invs| - 1], id);
    }
  }
  /**
   * A plan whose id no other investment shares adds exactly its own monthly
   * figure to the other plans' flow: the amount for a monthly plan, ×4.33 for
   * a weekly one, ÷12 for a yearly one, nothing for a one-time investment.
   */
  lemma {:induction false} MonthlyOfUniquePlan(invs: seq<Investment>, k: int)
    requires 0 <= k < |invs|
    requires forall j :: 0 <= j < |invs| && j != k ==> invs[j].id != invs[k].id
    ensures MonthlyInvestments(invs) == OtherMonthly(invs, invs[k].id) + ToMonthly(invs[k].amount, invs[k].frequency, SkipOneTime)
    decreases |invs|
  {
    var front := invs[..|invs| - 1];
    if k == |invs| - 1 {
      OtherMonthlyOfFreshId(front, invs[k].id);
    } else {
      assert front[k] == invs[k];
      MonthlyOfUniquePlan(front, k);
    }
  }


  /**
   * How far the plan's monthly figure exceeds the monthly savings left over
   * after the other plans.
   */
  function Overage(data: PrognoseData, monthlySavings: real, inv: Investment, amount: real): real {
    var monthlyAmount := ToMonthly(amount, inv.frequency, SkipOneTime);
    monthlyAmount - (monthlySavings - OtherMonthly(data.investments, inv.id))
  }

  /**
   * The number of months the free capital can cover the overage, or None when
   * the plan is one-time or fits in the monthly savings (unlimited).
   */
  function MaxDuration(data: PrognoseData, monthlySavings: real, inv: Investment, amount: real): (r: Option<int>)
    ensures inv.frequency == OneTime ==> r == None
    ensures inv.frequency != OneTime ==> (r.None? <==> Overage(data, monthlySavings, inv, amount) <= 0.0)
    ensures r.Some? ==> r.value >= 0
    ensures r.Some? && AvailableLiquid(data) >= 0.0 ==>
              r.value as real * Overage(data, monthlySavings, inv, amount) <= AvailableLiquid(data)
              < (r.value + 1) as real * Overage(data, monthlySavings, inv, amount)
    ensures r.Some? && AvailableLiquid(data) < Overage(data, monthlySavings, inv, amount) ==> r.value == 0
  {
    if inv.frequency == OneTime then None
    else
      var monthlyOverage := Overage(data, monthlySavings, inv, amount);
      if monthlyOverage <= 0.0 then None
      else
        var avail := AvailableLiquid(data);
        var maxMonths := (avail / monthlyOverage).Floor;
        FloorCapacity(avail, monthlyOverage);
        Some(if maxMonths > 0 then maxMonths else 0)
  }

  /** `floor(a / o)` is the largest count whose multiple of `o` still fits in `a`. */
  lemma FloorCapacity(a: real, o: real)
    requires o > 0.0
    ensures (a / o).Floor as real * o <= a < ((a / o).Floor + 1) as real * o
    ensures a < o ==> (a / o).Floor <= 0
  {
    var q := a / o;
    var n := q.Floor;
    assert n as real <= q < n as real + 1.0;
    assert q * o == a;
    MulLeq(n as real, q, o);
    MulLt(q, n as real + 1.0, o);
    assert (n + 1) as real == n as real + 1.0;
    assert a < (n + 1) as real * o;
    if a < o {
      assert q * o < 1.0 * o;
      MulLtCancel(q, 1.0, o);
    }
  }

  lemma MulLeq(x: real, y: real, o: real)
    requires o > 0.0 && x <= y
    ensures x * o <= y * o
  {
  }

  lemma MulLtCancel(x: real, y: real, o: real)
    requires o > 0.0 && x * o < y * o
    ensures x < y
  {
  }

  lemma MulLt(x: real, y: real, o: real)
    requires o > 0.0 && x < y
    ensures x * o < y * o
  {
  }

  /**
   * The requested duration: `duration || durationMonths || yearsToProject * 12`,
   * where an absent value or 0 falls through to the next one.
   */
  function RequestedDuration(duration: Option<int>, durationMonths: Option<int>, yearsToProject: int): (r: int)
    ensures duration.Some? && duration.value != 0 ==> r == duration.value
    ensures (duration.None? || duration.value == 0) && durationMonths.Some? && durationMonths.value != 0 ==>
              r == durationMonths.value
    ensures (duration.None? || duration.value == 0) && (durationMonths.None? || durationMonths.value == 0) ==>
              r == yearsToProject * 12
  {
    if duration.Some? && duration.value != 0 then duration.value
    else if durationMonths.Some? && durationMonths.value != 0 then durationMonths.value
    else yearsToProject * 12
  }

  /** The outcome of a validation, with the figures its warning message reports. */
  datatype Verdict =
    | Valid
    | ShortOfLiquid(available: real)
    | ShortOfCapital(requestedMonths: int, maxMonths: int)

  /** The figure a one-time investment is checked against (other one-time amounts are subtracted again). */
  function OneTimeRoom(data: PrognoseData, inv: Investment): real {
    AvailableLiquid(data) - OtherOneTime(data.investments, inv.id)
  }

  /** `max(0, floor(availableLiquid / overage))`, the duration bound of a plan over budget. */
  function CapacityMonths(data: PrognoseData, monthlySavings: real, inv: Investment, amount: real): int
    requires Overage(data, monthlySavings, inv, amount) > 0.0
  {
    var f := (AvailableLiquid(data) / Overage(data, monthlySavings, inv, amount)).Floor;
    if f > 0 then f else 0
  }

  /**
   * Whether `inv` may take `newAmount` (and, for a plan, run for the
   * requested duration). One-time: the amount must fit in the free liquid
   * capital minus the other one-time amounts. Recurring: a plan within the
   * monthly savings is always fine; beyond it the requested duration must
   * not exceed the months the free capital covers the overage.
   */
  function ValidateInvestment(data: PrognoseData, monthlySavings: real, inv: Investment, newAmount: real, duration: Option<int>): (v: Verdict)
    ensures inv.frequency == OneTime ==> (v != Valid <==> newAmount > OneTimeRoom(data, inv))
    ensures inv.frequency == OneTime && v != Valid ==> v == ShortOfLiquid(Max(0.0, OneTimeRoom(data, inv)))
    ensures inv.frequency != OneTime && Overage(data, monthlySavings, inv, newAmount) <= 0.0 ==> v == Valid
    ensures inv.frequency != OneTime && Overage(data, monthlySavings, inv, newAmount) > 0.0 ==>
              var requested := RequestedDuration(duration, inv.durationMonths, data.yearsToProject);
              var cap := CapacityMonths(data, monthlySavings, inv, newAmount);
              (v != Valid <==> requested > cap) && (v != Valid ==> v == ShortOfCapital(requested, cap))
    ensures v.ShortOfCapital? ==> v.requestedMonths > v.maxMonths >= 0
  {
    if inv.frequency == OneTime then
      var maxPossible := AvailableLiquid(data) - OtherOneTime(data.investments, inv.id);
      if newAmount > maxPossible then ShortOfLiquid(Max(0.0, maxPossible)) else Valid
    else
      var monthlyAmount := ToMonthly(newAmount, inv.frequency, SkipOneTime);
      var maxPossibleMonthly := monthlySavings - OtherMonthly(data.investments, inv.id);
      var monthlyOverage := monthlyAmount - maxPossibleMonthly;
      if monthlyOverage > 0.0 then
        var maxDuration := MaxDuration(data, monthlySavings, inv, newAmount);
        var requested := RequestedDuration(duration, inv.durationMonths, data.yearsToProject);
        if maxDuration.Some? && requested > maxDuration.value then ShortOfCapital(requested, maxDuration.value)
        else Valid
      else Valid
  }

  /** With no other one-time investment, a one-time amount is fine iff it fits in the free liquid capital. */
  lemma LoneOneTimeCheck(data: PrognoseData, monthlySavings: real, inv: Investment, newAmount: real, duration: Option<int>)
    requires inv.frequency == OneTime
    requires forall i :: 0 <= i < |data.investments| ==>
               data.investments[i].frequency != OneTime || data.investments[i].id == inv.id
    ensures ValidateInvestment(data, monthlySavings, inv, newAmount, duration) == Valid
            <==> newAmount <= AvailableLiquid(data)
  {
    NoOtherOneTime(data.investments, inv.id);
  }

  lemma {:induction false} NoOtherOneTime(invs: seq<Investment>, id: string)
    requires forall i :: 0 <= i < |invs| ==> invs[i].frequency != OneTime || invs[i].id == id
    ensures OtherOneTime(invs, id) == 0.0
    decreases |invs|
  {
    if |invs| > 0 {
      NoOtherOneTime(invs[..|invs| - 1], id);
    }
  }

  /** Asking for a longer duration never turns a failing plan into an affordable one. */
  lemma LongerNeverHelps(data: PrognoseData, monthlySavings: real, inv: Investment, newAmount: real, d1: int, d2: int)
    requires inv.frequency != OneTime
    requires 0 < d1 <= d2
    requires ValidateInvestment(data, monthlySavings, inv, newAmount, Some(d1)) != Valid
    ensures ValidateInvestment(data, monthlySavings, inv, newAmount, Some(d2)) != Valid
  {
  }

  /**
   * A one-time edit is checked against capital from which its own old amount
   * and the other one-time amounts are already gone, and the other amounts
   * are subtracted once more: with 1000 free and another 500 committed, an
   * investment of 0 cannot be raised to 500.
   */
  lemma OneTimeCountsOthersTwice()
    ensures var a := Investment("a", "ETF", 0.0, 7.0, OneTime, None, None);
            var b := Investment("b", "Aktien", 500.0, 7.0, OneTime, None, None);
            var data := PrognoseData(0.0, 1000.0, [a, b], 2.0, 10);
            && 500.0 + 500.0 <= data.currentAssets + data.liquidAssets
            && ValidateInvestment(data, 0.0, a, 500.0, None) == ShortOfLiquid(0.0)
  {
    var a := Investment("a", "ETF", 0.0, 7.0, OneTime, None, None);
    var b := Investment("b", "Aktien", 500.0, 7.0, OneTime, None, None);
    var invs := [a, b];
    assert invs[..1] == [a];
    assert invs[..1][..0] == [];
  }

  /** A duration of 0 is no duration: it falls through to the stored value, then to the horizon. */
  lemma ZeroDurationFallsThrough(years: int)
    ensures RequestedDuration(Some(0), Some(6), years) == 6
    ensures RequestedDuration(Some(0), Some(0), years) == years * 12
    ensures RequestedDuration(None, None, years) == years * 12
  {
  }

  /**
   * 200 a month against 150 of savings leaves an overage of 50, which 600 of
   * free capital covers for 12 months: 12 months pass, 13 do not.
   */
  lemma TwelveMonthsOfOverage()
    ensures var plan := Investment("p", "ETF", 200.0, 7.0, Monthly, None, None);
            var data := PrognoseData(0.0, 600.0, [plan], 2.0, 10);
            && MaxDuration(data, 150.0, plan, 200.0) == Some(12)
            && ValidateInvestment(data, 150.0, plan, 200.0, Some(12)) == Valid
            && ValidateInvestment(data, 150.0, plan, 200.0, Some(13)) == ShortOfCapital(13, 12)
  {
    var plan := Investment("p", "ETF", 200.0, 7.0, Monthly, None, None);
    var invs := [plan];
    assert invs[..0] == [];
    var data := PrognoseData(0.0, 600.0, invs, 2.0, 10);
    assert OtherMonthly(invs, "p") == 0.0;
    assert OneTimeTotal(invs) == 0.0;
    assert AvailableLiquid(data) == 600.0;
    assert Overage(data, 150.0, plan, 200.0) == 50.0;
    assert (600.0 / 50.0).Floor == 12;
  }

  // ---------------------------------------------------------------- edits

  datatype Field = AmountField | ReturnField

  /** The result of an edit: the new investment list and, if the edit was validated, the verdict. */
  datatype Edit = Edit(investments: seq<Investment>, verdict: Option<Verdict>)

  /** `find` by id: the first investment with id `id`. */
  function FindById(invs: seq<Investment>, id: string): (r: Option<Investment>)
    ensures r.Some? <==> exists i :: 0 <= i < |invs| && invs[i].id == id
    ensures r.Some? ==> r.value.id == id && r.value in invs
    ensures r.Some? ==> exists i :: 0 <= i < |invs| && invs[i] == r.value && forall j :: 0 <= j < i ==> invs[j].id != id
    decreases |invs|
  {
    if |invs| == 0 then None
    else if invs[0].id == id then Some(invs[0])
    else
      var r := FindById(invs[1..], id);
      assert r.Some? ==> r.value in invs;
      assert forall i :: 1 <= i < |invs| ==> invs[i] == invs[1..][i - 1];
      assert r.Some? ==> exists i :: 0 <= i < |invs| && invs[i] == r.value && forall j :: 0 <= j < i ==> invs[j].id != id by {
        if r.Some? {
          var i :| 0 <= i < |invs[1..]| && invs[1..][i] == r.value && forall j :: 0 <= j < i ==> invs[1..][j].id != id;
          assert invs[i + 1] == r.value;
          assert forall j :: 0 <= j < i + 1 ==> invs[j].id != id by {
            forall j | 0 <= j < i + 1 ensures invs[j].id != id {
              if j > 0 { assert invs[j] == invs[1..][j - 1]; }
            }
          }
        }
      }
      r
  }

  function SetField(inv: Investment, field: Field, value: real): Investment {
    match field
    case AmountField => inv.(amount := value)
    case ReturnField => inv.(annualReturn := value)
  }

  /** `investments.map(inv => inv.id === id ? change(inv) : inv)` for the three edits below. */
  function MapMatching(invs: seq<Investment>, id: string, change: Investment -> Investment): (r: seq<Investment>)
    ensures |r| == |invs|
    ensures forall i :: 0 <= i < |invs| ==> r[i] == (if invs[i].id == id then change(invs[i]) else invs[i])
  {
    seq(|invs|, i requires 0 <= i < |invs| => if invs[i].id == id then change(invs[i]) else invs[i])
  }

  /**
   * Editing an amount or a return rate: every investment with id `id` gets the
   * value; an amount edit of an existing investment is validated (with its
   * stored duration), but the edit happens whatever the verdict.
   */
  function UpdateInvestment(data: PrognoseData, monthlySavings: real, id: string, field: Field, value: real): (e: Edit)
    ensures |e.investments| == |data.investments|
    ensures forall i :: 0 <= i < |data.investments| ==>
              e.investments[i] == (if data.investments[i].id == id then SetField(data.investments[i], field, value)
                                   else data.investments[i])
    ensures e.verdict.Some? <==> field == AmountField && exists i :: 0 <= i < |data.investments| && data.investments[i].id == id
    ensures e.verdict.Some? ==>
              var inv := FindById(data.investments, id).value;
              e.verdict.value == ValidateInvestment(data, monthlySavings, inv, value, inv.durationMonths)
  {
    var verdict :=
      if field == AmountField then
        match FindById(data.investments, id)
        case Some(inv) => Some(ValidateInvestment(data, monthlySavings, inv, value, inv.durationMonths))
        case None => None
      else None;
    Edit(MapMatching(data.investments, id, (inv: Investment) => SetField(inv, field, value)), verdict)
  }

  /** Validation is soft: the edited list does not depend on anything the verdict depends on. */
  lemma ValidationIsSoft(data: PrognoseData, s1: real, s2: real, assets: real, id: string, field: Field, value: real)
    ensures UpdateInvestment(data, s1, id, field, value).investments
         == UpdateInvestment(data.(currentAssets := assets), s2, id, field, value).investments
  {
  }

  /** Editing the duration: validated with the new duration and the stored amount, then applied. */
  function UpdateDuration(data: PrognoseData, monthlySavings: real, id: string, durationMonths: Option<int>): (e: Edit)
    ensures |e.investments| == |data.investments|
    ensures forall i :: 0 <= i < |data.investments| ==>
              e.investments[i] == (if data.investments[i].id == id then data.investments[i].(durationMonths := durationMonths)
                                   else data.investments[i])
    ensures e.verdict.Some? <==> exists i :: 0 <= i < |data.investments| && data.investments[i].id == id
    ensures e.verdict.Some? ==>
              var inv := FindById(data.investments, id).value;
              e.verdict.value == ValidateInvestment(data, monthlySavings, inv, inv.amount, durationMonths)
  {
    var verdict :=
      match FindById(data.investments, id)
      case Some(inv) => Some(ValidateInvestment(data, monthlySavings, inv, inv.amount, durationMonths))
      case None => None;
    Edit(MapMatching(data.investments, id, (inv: Investment) => inv.(durationMonths := durationMonths)), verdict)
  }

  /** Editing the frequency: the investment is validated as if it already had the new frequency. */
  function UpdateFrequency(data: PrognoseData, monthlySavings: real, id: string, frequency: Frequency): (e: Edit)
    ensures |e.investments| == |data.investments|
    ensures forall i :: 0 <= i < |data.investments| ==>
              e.investments[i] == (if data.investments[i].id == id then data.investments[i].(frequency := frequency)
                                   else data.investments[i])
    ensures e.verdict.Some? <==> exists i :: 0 <= i < |data.investments| && data.investments[i].id == id
    ensures e.verdict.Some? ==>
              var inv := FindById(data.investments, id).value;
              e.verdict.value == ValidateInvestment(data, monthlySavings, inv.(frequency := frequency), inv.amount, None)
  {
    var verdict :=
      match FindById(data.investments, id)
      case Some(inv) => Some(ValidateInvestment(data, monthlySavings, inv.(frequency := frequency), inv.amount, None))
      case None => None;
    Edit(MapMatching(data.investments, id, (inv: Investment) => inv.(frequency := frequency)), verdict)
  }
}

=== FILE: analysis.dfy ===
/**
 * The analysis screen's logic: the savings-rate rating bands, the data of the
 * expense and income donut charts, and the string hash that picks a stable
 * colour per category name.
 */
module Analysis {
  import opened FinanceTypes
  import opened Cadence
  import Sorting
  import ListOps
  import Budget

  // ---------------------------------------------------------------- ratings

  datatype Rating = Defizit | Kritisch | Okay | Gut | Top

  datatype RatingInfo = RatingInfo(category: Rating, tone: Tone)

  /** The rating of a savings rate (in percent): below 0, 3, 8, 15, or above. */
  function SavingsRatingInfo(rate: real): (r: RatingInfo)
    ensures r.category == Defizit <==> rate < 0.0
    ensures r.category == Kritisch <==> 0.0 <= rate < 3.0
    ensures r.category == Okay <==> 3.0 <= rate < 8.0
    ensures r.category == Gut <==> 8.0 <= rate < 15.0
    ensures r.category == Top <==> 15.0 <= rate
    ensures r.tone == ExpenseAccent <==> rate < 3.0
    ensures r.tone == match r.category
                      case Defizit => ExpenseAccent
                      case Kritisch => ExpenseAccent
                      case Okay => Accent
                      case Gut => IncomeAccent
                      case Top => IncomeDark
  {
    if rate < 0.0 then RatingInfo(Defizit, ExpenseAccent)
    else if rate < 3.0 then RatingInfo(Kritisch, ExpenseAccent)
    else if rate < 8.0 then RatingInfo(Okay, Accent)
    else if rate < 15.0 then RatingInfo(Gut, IncomeAccent)
    else RatingInfo(Top, IncomeDark)
  }

  function Rank(r: Rating): nat {
    match r
    case Defizit => 0
    case Kritisch => 1
    case Okay => 2
    case Gut => 3
    case Top => 4
  }

  /** A higher savings rate never gets a worse rating. */
  lemma RatingMonotone(a: real, b: real)
    requires a <= b
    ensures Rank(SavingsRatingInfo(a).category) <= Rank(SavingsRatingInfo(b).category)
  {
  }

  // ---------------------------------------------------------------- colours

  const TwoTo31: int := 0x8000_0000
  const TwoTo32: int := 0x1_0000_0000

  /** ECMAScript ToInt32: the 32-bit two's-complement value congruent to `x`. */
  function ToInt32(x: int): (r: int)
    ensures -TwoTo31 <= r < TwoTo31
    ensures (x - r) % TwoTo32 == 0
  {
    var m := x % TwoTo32;
    if m >= TwoTo31 then m - TwoTo32 else m
  }

  /** Congruent integers have the same 32-bit value. */
  lemma ToInt32Congruent(a: int, b: int, k: int)
    requires a == b + k * TwoTo32
    ensures ToInt32(a) == ToInt32(b)
  {
    var q := b / TwoTo32;
    var m := b % TwoTo32;
    assert b == q * TwoTo32 + m;
    assert a == (q + k) * TwoTo32 + m;
    assert a % TwoTo32 == m by {
      DivModUnique(a, q + k, m);
    }
  }

  lemma DivModUnique(a: int, q: int, m: int)
    requires 0 <= m < TwoTo32
    requires a == q * TwoTo32 + m
    ensures a % TwoTo32 == m
  {
    var q' := a / TwoTo32;
    var m' := a % TwoTo32;
    assert a == q' * TwoTo32 + m';
    assert (q - q') * TwoTo32 == m' - m;
  }

  /** One round of `hash = charCode + ((hash << 5) - hash); hash = hash & hash`. */
  function HashStep(hash: int, charCode: int): int {
    var shifted := ToInt32(hash * 32);
    ToInt32(charCode + (shifted - hash))
  }

  /** A round is multiplication by 31 plus the character code, in 32-bit arithmetic. */
  lemma HashStepIsTimes31(hash: int, charCode: int)
    ensures HashStep(hash, charCode) == ToInt32(31 * hash + charCode)
  {
    var shifted := ToInt32(hash * 32);
    var k := (hash * 32 - shifted) / TwoTo32;
    assert hash * 32 - shifted == k * TwoTo32;
    ToInt32Congruent(31 * hash + charCode, charCode + (shifted - hash), k);
  }

  /** The hash of a seed string, folding its characters left to right. */
  function StringHash(seed: string): (h: int)
    ensures -TwoTo31 <= h < TwoTo31
    decreases |seed|
  {
    if |seed| == 0 then 0
    else HashStep(StringHash(seed[..|seed| - 1]), seed[|seed| - 1] as int)
  }

  /** Reference: the unbounded polynomial hash, sum of code * 31^(distance from the end). */
  function PolyHash(seed: string): int
    decreases |seed|
  {
    if |seed| == 0 then 0
    else 31 * PolyHash(seed[..|seed| - 1]) + seed[|seed| - 1] as int
  }

  /** The screen's hash is the polynomial hash reduced to 32 bits. */
  lemma {:induction false} StringHashIsPolyHash(seed: string)
    ensures StringHash(seed) == ToInt32(PolyHash(seed))
    decreases |seed|
  {
    if |seed| > 0 {
      var front := seed[..|seed| - 1];
      var c := seed[|seed| - 1] as int;
      StringHashIsPolyHash(front);
      var h := StringHash(front);
      var p := PolyHash(front);
      HashStepIsTimes31(h, c);
      var k := (p - h) / TwoTo32;
      assert p - h == k * TwoTo32;
      ToInt32Congruent(31 * p + c, 31 * h + c, 31 * k);
    }
  }

  const IncomePalette: seq<string> := [
    "#C7F5E8", "#87D4C8", "#A3C8E8", "#9FD4E8", "#B8A3E8", "#9FE7D2",
    "#78C8B8", "#C8E8D4", "#D4C8F5", "#8FC8D8", "#A8D8C8", "#B8C8E8"]

  const ExpensePalette: seq<string> := [
    "#FFE8A3", "#FFCF87", "#FFB5A3", "#FFB8D4", "#FFD4A3", "#FFA8C8",
    "#FFC878", "#FFE0B8", "#FFCCE0", "#FFD8B8", "#FFA8B8", "#FFE8C8"]

  /** `Math.abs(hash) % 12`: always a valid palette position. */
  function ColorIndex(seed: string): (k: int)
    ensures 0 <= k < 12
    ensures k == (if StringHash(seed) < 0 then -StringHash(seed) else StringHash(seed)) % 12
  {
    var h := StringHash(seed);
    (if h < 0 then -h else h) % 12
  }

  /** The colour of a seed: its palette entry in the income or the expense palette. */
  function RandomColor(seed: string, isIncome: bool): (c: string)
    ensures isIncome ==> c in IncomePalette
    ensures !isIncome ==> c in ExpensePalette
  {
    if isIncome then IncomePalette[ColorIndex(seed)] else ExpensePalette[ColorIndex(seed)]
  }

  // ---------------------------------------------------------------- charts

  datatype ChartEntry = ChartEntry(name: string, amount: real, color: string)

  function Amount(e: ChartEntry): real {
    e.amount
  }

  function Positive(e: ChartEntry): bool {
    e.amount > 0.0
  }

  /** One chart entry per category: its name, its monthly total (one-time as 0), its colour. */
  function CategoryEntries(cats: seq<FinanceCategory>, isIncome: bool): (r: seq<ChartEntry>)
    ensures |r| == |cats|
    ensures forall i :: 0 <= i < |cats| ==>
              && r[i].name == cats[i].name
              && r[i].amount == ItemsTotal(cats[i].items, SkipOneTime)
              && r[i].color == RandomColor(cats[i].name, isIncome)
  {
    seq(|cats|, i requires 0 <= i < |cats| =>
      ChartEntry(cats[i].name, ItemsTotal(cats[i].items, SkipOneTime), RandomColor(cats[i].name, isIncome)))
  }

  /** The entries with a positive amount, largest first, equal amounts in entry order. */
  function PositiveDescending(entries: seq<ChartEntry>): (r: seq<ChartEntry>)
    ensures forall k :: 0 <= k < |r| ==> r[k].amount > 0.0
    ensures forall i, j :: 0 <= i < j < |r| ==> r[i].amount >= r[j].amount
    ensures forall e :: multiset(r)[e] == if e.amount > 0.0 then multiset(entries)[e] else 0
    ensures forall k :: ListOps.Filter(r, Sorting.KeyIs(Amount, k)) == ListOps.Filter(ListOps.Filter(entries, Positive), Sorting.KeyIs(Amount, k))
  {
    var kept := ListOps.Filter(entries, Positive);
    var r := Sorting.SortDesc(kept, Amount);
    Sorting.SortKeepsTies(kept, Amount);
    forall e ensures multiset(r)[e] == if e.amount > 0.0 then multiset(entries)[e] else 0 {
      ListOps.FilterMultiset(entries, Positive, e);
    }
    forall k | 0 <= k < |r| ensures r[k].amount > 0.0 {
      assert r[k] in multiset(kept);
    }
    r
  }

  /** The expense donut: categories with a positive monthly total, largest first. */
  function PieChartData(expenses: MainCategory): (r: seq<ChartEntry>)
    ensures forall k :: 0 <= k < |r| ==> r[k].amount > 0.0
    ensures forall i, j :: 0 <= i < j < |r| ==> r[i].amount >= r[j].amount
    ensures forall e :: multiset(r)[e] ==
              if e.amount > 0.0 then multiset(CategoryEntries(expenses.categories, false))[e] else 0
    ensures forall k :: ListOps.Filter(r, Sorting.KeyIs(Amount, k))
                        == ListOps.Filter(ListOps.Filter(CategoryEntries(expenses.categories, false), Positive), Sorting.KeyIs(Amount, k))
  {
    PositiveDescending(CategoryEntries(expenses.categories, false))
  }

  const ReturnsLabel: string := "Erträge aus Investitionen"

  function ReturnsEntry(paidOut: real): ChartEntry {
    ChartEntry(ReturnsLabel, paidOut, RandomColor(ReturnsLabel, true))
  }

  /**
   * The income donut: the income categories plus, when the paid-out
   * investment yield is positive, an entry for it; positive entries only,
   * largest first.
   */
  function IncomeChartData(income: MainCategory, invs: seq<Investment>): (r: seq<ChartEntry>)
    ensures forall k :: 0 <= k < |r| ==> r[k].amount > 0.0
    ensures forall i, j :: 0 <= i < j < |r| ==> r[i].amount >= r[j].amount
    ensures ReturnsEntry(Budget.MonthlyInvestmentReturns(invs)) in r <==> Budget.MonthlyInvestmentReturns(invs) > 0.0
    ensures forall e :: multiset(r)[e] ==
              if e.amount > 0.0
              then multiset(CategoryEntries(income.categories, true))[e]
                   + (if e == ReturnsEntry(Budget.MonthlyInvestmentReturns(invs)) then 1 else 0)
              else 0
    ensures forall k :: ListOps.Filter(r, Sorting.KeyIs(Amount, k))
                        == ListOps.Filter(ListOps.Filter(IncomeEntries(income, invs), Positive), Sorting.KeyIs(Amount, k))
  {
    IncomeChartContents(income, invs);
    PositiveDescending(IncomeEntries(income, invs))
  }

  /** Helper for IncomeChartData: the chart's entries with their multiplicities. */
  lemma IncomeChartContents(income: MainCategory, invs: seq<Investment>)
    ensures var paidOut := Budget.MonthlyInvestmentReturns(invs);
            var r := PositiveDescending(IncomeEntries(income, invs));
            && (ReturnsEntry(paidOut) in r <==> paidOut > 0.0)
            && forall e :: multiset(r)[e] ==
                 if e.amount > 0.0
                 then multiset(CategoryEntries(income.categories, true))[e] + (if e == ReturnsEntry(paidOut) then 1 else 0)
                 else 0
  {
    var paidOut := Budget.MonthlyInvestmentReturns(invs);
    var entries := CategoryEntries(income.categories, true);
    var all := IncomeEntries(income, invs);
    var r := PositiveDescending(all);
    assert multiset(all) == multiset(entries) + (if paidOut > 0.0 then multiset{ReturnsEntry(paidOut)} else multiset{});
    assert paidOut > 0.0 ==> multiset(r)[ReturnsEntry(paidOut)] > 0;
  }

  /** The income entries before filtering: the categories, then the returns entry when the paid-out yield is positive. */
  function IncomeEntries(income: MainCategory, invs: seq<Investment>): (r: seq<ChartEntry>)
    ensures var paidOut := Budget.MonthlyInvestmentReturns(invs);
            r == CategoryEntries(income.categories, true) + (if paidOut > 0.0 then [ReturnsEntry(paidOut)] else [])
  {
    var paidOut := Budget.MonthlyInvestmentReturns(invs);
    var entries := CategoryEntries(income.categories, true);
    if paidOut > 0.0 then entries + [ReturnsEntry(paidOut)] else entries + []
  }
}

=== FILE: budget.dfy ===
/**
 * The aggregates the finance context offers every screen: monthly totals of
 * the expense and income blocks, the monthly yield of investments whose
 * returns are paid out, and the savings rate.
 */
module Budget {
  import opened Wrappers
  import opened FinanceTypes
  import opened Cadence
  import ListOps

  /**
   * The monthly total of a block: weekly x4.33, yearly /12, monthly as is,
   * one-time items not at all. It is what the header total would show minus
   * the face value of the one-time items.
   */
  function MonthlyTotal(mc: MainCategory): (r: real)
    ensures r == CategoriesTotal(mc.categories, KeepOneTime) - CategoriesOneTimeFace(mc.categories)
    ensures |mc.categories| == 0 ==> r == 0.0
  {
    CategoriesKeepAddsOneTimeFace(mc.categories);
    CategoriesTotal(mc.categories, SkipOneTime)
  }

  /** Adding a category adds exactly the monthly total of its items. */
  lemma MonthlyTotalAddCategory(mc: MainCategory, c: FinanceCategory)
    ensures MonthlyTotal(mc.(categories := mc.categories + [c]))
         == MonthlyTotal(mc) + ItemsTotal(c.items, SkipOneTime)
  {
    CategoriesTotalAppend(mc.categories, [c], SkipOneTime);
    assert [c][..0] == [];
  }

  /** Only investments whose `reinvestEnabled` is explicitly false pay out their return. */
  predicate PaysOut(inv: Investment) {
    inv.reinvestEnabled == Some(false)
  }

  /** The monthly share of an investment's yearly return. */
  function MonthlyYield(inv: Investment): real {
    PercentOf(inv.amount, inv.annualReturn) / 12.0
  }

  /** The monthly yield of the investments that pay out, summed in list order. */
  function MonthlyInvestmentReturns(invs: seq<Investment>): (r: real)
    ensures (forall i :: 0 <= i < |invs| ==> !PaysOut(invs[i])) ==> r == 0.0
    ensures (forall i :: 0 <= i < |invs| && PaysOut(invs[i]) ==>
               invs[i].amount >= 0.0 && invs[i].annualReturn >= 0.0) ==> r >= 0.0
    decreases |invs|
  {
    if |invs| == 0 then 0.0
    else
      var last := invs[|invs| - 1];
      MonthlyInvestmentReturns(invs[..|invs| - 1]) + (if PaysOut(last) then MonthlyYield(last) else 0.0)
  }

  /** Investments that reinvest (explicitly or by default) can be dropped without changing the yield. */
  lemma {:induction false} ReturnsOnlyFromPayingOut(invs: seq<Investment>)
    ensures MonthlyInvestmentReturns(invs) == MonthlyInvestmentReturns(ListOps.Filter(invs, PaysOut))
    decreases |invs|
  {
    if |invs| > 0 {
      var rest := invs[1..];
      ReturnsOnlyFromPayingOut(rest);
      ReturnsFirst(invs);
      if PaysOut(invs[0]) {
        var kept := [invs[0]] + ListOps.Filter(rest, PaysOut);
        ReturnsFirst(kept);
        assert kept[1..] == ListOps.Filter(rest, PaysOut);
      }
    }
  }

  /** Helper: the yield of two lists one after the other is the sum of their yields. */
  lemma {:induction false} ReturnsAppend(a: seq<Investment>, b: seq<Investment>)
    ensures MonthlyInvestmentReturns(a + b) == MonthlyInvestmentReturns(a) + MonthlyInvestmentReturns(b)
    decreases |b|
  {
    if |b| == 0 {
      assert a + b == a;
    } else {
      assert (a + b)[..|a + b| - 1] == a + b[..|b| - 1];
      ReturnsAppend(a, b[..|b| - 1]);
    }
  }

  /** Helper: a list's yield is its first investment's paid-out yield plus the rest's. */
  lemma ReturnsFirst(s: seq<Investment>)
    requires |s| > 0
    ensures MonthlyInvestmentReturns(s)
         == (if PaysOut(s[0]) then MonthlyYield(s[0]) else 0.0) + MonthlyInvestmentReturns(s[1..])
  {
    ReturnsAppend([s[0]], s[1..]);
    assert [s[0]] + s[1..] == s;
    assert [s[0]][..0] == [];
  }

  /** Regular income plus the paid-out investment yield: the savings-rate denominator. */
  function IncomeWithReturns(income: MainCategory, invs: seq<Investment>): real {
    MonthlyTotal(income) + MonthlyInvestmentReturns(invs)
  }

  /**
   * The monthly surplus the projection works with: income plus paid-out
   * yield minus expenses. The savings rate is exactly the rate of that
   * income when it leaves this surplus.
   */
  function MonthlySavings(expenses: MainCategory, income: MainCategory, invs: seq<Investment>): (r: real)
    ensures IsRate(SavingsRate(expenses, income, invs), IncomeWithReturns(income, invs), IncomeWithReturns(income, invs) - r)
    ensures IncomeWithReturns(income, invs) == 0.0 ==> r == -MonthlyTotal(expenses)
  {
    IncomeWithReturns(income, invs) - MonthlyTotal(expenses)
  }

  /**
   * What makes `r` the savings rate in percent of `totalIncome` after
   * `totalExpenses`: 0 when there is no income, otherwise the share left
   * over times 100, at most 100 for non-negative expenses and negative
   * exactly when expenses exceed a positive income.
   */
  predicate IsRate(r: real, totalIncome: real, totalExpenses: real) {
    && (totalIncome == 0.0 ==> r == 0.0)
    && (totalIncome != 0.0 ==> r * totalIncome == (totalIncome - totalExpenses) * 100.0)
    && (totalIncome > 0.0 && totalExpenses >= 0.0 ==> r <= 100.0)
    && (totalIncome > 0.0 ==> (r >= 0.0 <==> totalExpenses <= totalIncome))
  }

  /**
   * The savings rate in percent: what is left of income (with returns) after
   * expenses, relative to that income; 0 when the income is 0.
   */
  function SavingsRate(expenses: MainCategory, income: MainCategory, invs: seq<Investment>): (r: real)
    ensures IsRate(r, IncomeWithReturns(income, invs), MonthlyTotal(expenses))
  {
    RateOf(IncomeWithReturns(income, invs), MonthlyTotal(expenses))
  }

  /** The rate arithmetic of `SavingsRate` over plain numbers. */
  function RateOf(totalIncome: real, totalExpenses: real): (r: real)
    ensures IsRate(r, totalIncome, totalExpenses)
  {
    if totalIncome == 0.0 then 0.0
    else
      var savings := totalIncome - totalExpenses;
      var q := savings / totalIncome;
      assert q * totalIncome == savings;
      assert totalIncome > 0.0 ==> (q >= 0.0 <==> savings >= 0.0);
      assert totalIncome > 0.0 && totalExpenses >= 0.0 ==> q <= 1.0;
      q * 100.0
  }
}

=== FILE: cadence.dfy ===
/**
 * The cadence rule shared by every screen: a weekly amount is 4.33 times its
 * value per month, a yearly amount a twelfth of it, a monthly amount itself.
 * One-time amounts are either left out of a monthly figure (totals, budget,
 * charts) or kept at face value (item sorting, the main block header).
 */
module Cadence {
  import opened FinanceTypes

  /** Weeks per month used throughout the application. */
  const WeeksPerMonth: real := 4.33

  /** What a monthly figure does with a one-time amount. */
  datatype OneTimePolicy = SkipOneTime | KeepOneTime

  /** Reference table: the factor that turns an amount into its monthly figure. */
  function MonthlyFactor(f: Frequency, p: OneTimePolicy): real {
    match f
    case Weekly => 4.33
    case Monthly => 1.0
    case Yearly => 1.0 / 12.0
    case OneTime => if p == SkipOneTime then 0.0 else 1.0
  }

  /** The monthly figure of `amount` recurring at frequency `f`. */
  function ToMonthly(amount: real, f: Frequency, p: OneTimePolicy): (r: real)
    ensures r == MonthlyFactor(f, p) * amount
    ensures amount >= 0.0 ==> r >= 0.0
    ensures f == OneTime && p == SkipOneTime ==> r == 0.0
  {
    match f
    case Weekly => amount * WeeksPerMonth
    case Yearly => amount / 12.0
    case Monthly => amount
    case OneTime => if p == SkipOneTime then 0.0 else amount
  }

  /** The policy only matters for one-time amounts. */
  lemma PolicyOnlyAffectsOneTime(amount: real, f: Frequency)
    ensures ToMonthly(amount, f, SkipOneTime) == ToMonthly(amount, f, KeepOneTime) <==> f != OneTime || amount == 0.0
  {
  }

  /**
   * The yearly contribution used by the return summary: 12 months, 52 weeks,
   * or the yearly amount itself. One-time amounts have no yearly flow.
   */
  function ToYearly(amount: real, f: Frequency): (r: real)
    ensures f == Monthly || f == Yearly ==> r == 12.0 * ToMonthly(amount, f, SkipOneTime)
    ensures f == Weekly ==> r == 12.0 * ToMonthly(amount, f, SkipOneTime) + 0.04 * amount
    ensures f == OneTime ==> r == 0.0
  {
    match f
    case Monthly => amount * 12.0
    case Weekly => amount * 52.0
    case Yearly => amount
    case OneTime => 0.0
  }

  function ItemMonthly(item: FinanceItem, p: OneTimePolicy): real {
    ToMonthly(item.amount, item.frequency, p)
  }

  predicate NonNegativeAmounts(items: seq<FinanceItem>) {
    forall i :: 0 <= i < |items| ==> items[i].amount >= 0.0
  }

  /** The monthly total of a list of items, summed left to right. */
  function ItemsTotal(items: seq<FinanceItem>, p: OneTimePolicy): (r: real)
    ensures NonNegativeAmounts(items) ==> r >= 0.0
    decreases |items|
  {
    if |items| == 0 then 0.0
    else ItemsTotal(items[..|items| - 1], p) + ItemMonthly(items[|items| - 1], p)
  }

  /** The face value of the one-time items of a list. */
  function OneTimeFace(items: seq<FinanceItem>): (r: real)
    ensures NonNegativeAmounts(items) ==> r >= 0.0
    decreases |items|
  {
    if |items| == 0 then 0.0
    else
      var last := items[|items| - 1];
      OneTimeFace(items[..|items| - 1]) + (if last.frequency == OneTime then last.amount else 0.0)
  }

  /** Item totals split over concatenation. */
  lemma {:induction false} ItemsTotalAppend(a: seq<FinanceItem>, b: seq<FinanceItem>, p: OneTimePolicy)
    ensures ItemsTotal(a + b, p) == ItemsTotal(a, p) + ItemsTotal(b, p)
    decreases |b|
  {
    if |b| == 0 {
      assert a + b == a;
    } else {
      assert (a + b)[..|a + b| - 1] == a + b[..|b| - 1];
      ItemsTotalAppend(a, b[..|b| - 1], p);
    }
  }

  /** Keeping one-time amounts adds exactly their face value to a total. */
  lemma {:induction false} KeepAddsOneTimeFace(items: seq<FinanceItem>)
    ensures ItemsTotal(items, KeepOneTime) == ItemsTotal(items, SkipOneTime) + OneTimeFace(items)
    decreases |items|
  {
    if |items| > 0 {
      KeepAddsOneTimeFace(items[..|items| - 1]);
    }
  }

  /** The monthly total over several categories: the sum of their item totals. */
  function CategoriesTotal(cats: seq<FinanceCategory>, p: OneTimePolicy): (r: real)
    ensures (forall c :: 0 <= c < |cats| ==> NonNegativeAmounts(cats[c].items)) ==> r >= 0.0
    ensures |cats| == 0 ==> r == 0.0
    decreases |cats|
  {
    if |cats| == 0 then 0.0
    else CategoriesTotal(cats[..|cats| - 1], p) + ItemsTotal(cats[|cats| - 1].items, p)
  }

  /** The face value of the one-time items over several categories. */
  function CategoriesOneTimeFace(cats: seq<FinanceCategory>): real
    decreases |cats|
  {
    if |cats| == 0 then 0.0
    else CategoriesOneTimeFace(cats[..|cats| - 1]) + OneTimeFace(cats[|cats| - 1].items)
  }

  /** Category totals split over concatenation. */
  lemma {:induction false} CategoriesTotalAppend(a: seq<FinanceCategory>, b: seq<FinanceCategory>, p: OneTimePolicy)
    ensures CategoriesTotal(a + b, p) == CategoriesTotal(a, p) + CategoriesTotal(b, p)
    decreases |b|
  {
    if |b| == 0 {
      assert a + b == a;
    } else {
      assert (a + b)[..|a + b| - 1] == a + b[..|b| - 1];
      CategoriesTotalAppend(a, b[..|b| - 1], p);
    }
  }

  /** Over whole categories, keeping one-time amounts adds exactly their face value. */
  lemma {:induction false} CategoriesKeepAddsOneTimeFace(cats: seq<FinanceCategory>)
    ensures CategoriesTotal(cats, KeepOneTime) == CategoriesTotal(cats, SkipOneTime) + CategoriesOneTimeFace(cats)
    decreases |cats|
  {
    if |cats| > 0 {
      CategoriesKeepAddsOneTimeFace(cats[..|cats| - 1]);
      KeepAddsOneTimeFace(cats[|cats| - 1].items);
    }
  }
}

=== FILE: category_block.dfy ===
/**
 * One category of the expense or income block: its items sorted for display,
 * its monthly total, the colour band of that total, and adding, editing and
 * deleting items.
 */
module CategoryBlock {
  import opened FinanceTypes
  import opened Cadence
  import RealSums
  import Sorting
  import ListOps

  /** The key items are sorted by: the monthly figure, with one-time items at full amount. */
  function SortKey(item: FinanceItem): (r: real)
    ensures item.frequency != OneTime ==> r == SumKey(item)
    ensures item.frequency == OneTime ==> r == item.amount
  {
    ItemMonthly(item, KeepOneTime)
  }

  /** The key items are summed by: the monthly figure, with one-time items counting 0. */
  function SumKey(item: FinanceItem): (r: real)
    ensures r == MonthlyFactor(item.frequency, SkipOneTime) * item.amount
    ensures item.frequency == OneTime ==> r == 0.0
  {
    ItemMonthly(item, SkipOneTime)
  }

  /** The items, largest sort key first; a permutation of the category's items that keeps ties in entry order. */
  function SortedItems(cat: FinanceCategory): (r: seq<FinanceItem>)
    ensures multiset(r) == multiset(cat.items)
    ensures forall i, j :: 0 <= i < j < |r| ==> SortKey(r[i]) >= SortKey(r[j])
    ensures forall k :: ListOps.Filter(r, Sorting.KeyIs(SortKey, k)) == ListOps.Filter(cat.items, Sorting.KeyIs(SortKey, k))
  {
    Sorting.SortKeepsTies(cat.items, SortKey);
    Sorting.SortDesc(cat.items, SortKey)
  }

  /** The sum keys of a list of items, in list order. */
  function SumKeys(items: seq<FinanceItem>): (r: seq<real>)
    ensures |r| == |items|
    ensures forall i :: 0 <= i < |items| ==> r[i] == SumKey(items[i])
  {
    seq(|items|, i requires 0 <= i < |items| => SumKey(items[i]))
  }

  /** The category total: the sum of the sum keys of its items. */
  function CategoryTotal(cat: FinanceCategory): (r: real)
    ensures r == RealSums.Sum(SumKeys(cat.items))
  {
    TotalIsSumOfKeys(cat.items);
    ItemsTotal(cat.items, SkipOneTime)
  }

  lemma {:induction false} TotalIsSumOfKeys(items: seq<FinanceItem>)
    ensures ItemsTotal(items, SkipOneTime) == RealSums.Sum(SumKeys(items))
    decreases |items|
  {
    if |items| > 0 {
      var front := items[..|items| - 1];
      TotalIsSumOfKeys(front);
      assert SumKeys(items)[..|items| - 1] == SumKeys(front);
    }
  }

  /** Helper: an item put in front of a list adds its monthly figure to the total. */
  lemma ItemsTotalCons(x: FinanceItem, s: seq<FinanceItem>, p: OneTimePolicy)
    ensures ItemsTotal([x] + s, p) == ItemMonthly(x, p) + ItemsTotal(s, p)
  {
    ItemsTotalAppend([x], s, p);
    assert [x][..0] == [];
  }

  /** Helper: a list's total is its first item's monthly figure plus the rest's total. */
  lemma ItemsTotalFirst(s: seq<FinanceItem>, p: OneTimePolicy)
    requires |s| > 0
    ensures ItemsTotal(s, p) == ItemMonthly(s[0], p) + ItemsTotal(s[1..], p)
  {
    ItemsTotalCons(s[0], s[1..], p);
    assert [s[0]] + s[1..] == s;
  }

  /** Inserting an item into a sorted list adds its monthly figure to the total. */
  lemma {:induction false} InsertKeepsTotal(x: FinanceItem, s: seq<FinanceItem>, p: OneTimePolicy)
    requires Sorting.NonIncreasing(s, SortKey)
    ensures ItemsTotal(Sorting.InsertDesc(x, s, SortKey), p) == ItemMonthly(x, p) + ItemsTotal(s, p)
    decreases |s|
  {
    if |s| == 0 || SortKey(s[0]) <= SortKey(x) {
      ItemsTotalCons(x, s, p);
    } else {
      var rest := Sorting.InsertDesc(x, s[1..], SortKey);
      InsertKeepsTotal(x, s[1..], p);
      ItemsTotalCons(s[0], rest, p);
      ItemsTotalFirst(s, p);
    }
  }

  /** Sorting for display does not change any monthly total of the items. */
  lemma {:induction false} SortKeepsTotal(s: seq<FinanceItem>, p: OneTimePolicy)
    ensures ItemsTotal(Sorting.SortDesc(s, SortKey), p) == ItemsTotal(s, p)
    decreases |s|
  {
    if |s| > 0 {
      var sortedRest := Sorting.SortDesc(s[1..], SortKey);
      SortKeepsTotal(s[1..], p);
      InsertKeepsTotal(s[0], sortedRest, p);
      ItemsTotalFirst(s, p);
    }
  }

  /** The total of the sorted items is the category total. */
  lemma SortedTotal(cat: FinanceCategory)
    ensures RealSums.Sum(SumKeys(SortedItems(cat))) == CategoryTotal(cat)
  {
    SortKeepsTotal(cat.items, SkipOneTime);
    TotalIsSumOfKeys(SortedItems(cat));
  }

  /** Colour band of a total: below 500, below 1000, otherwise. */
  function Band(total: real): (b: nat)
    ensures b < 3
    ensures b == 0 <==> total < 500.0
    ensures b == 2 <==> total >= 1000.0
  {
    if total < 500.0 then 0 else if total < 1000.0 then 1 else 2
  }

  /** The four shades of a block, lightest first. */
  function Shades(kind: MainCategoryType): seq<Tone> {
    match kind
    case Expense => [ExpenseLight, ExpenseMedium, ExpenseDark, ExpenseAccent]
    case Income => [IncomeLight, IncomeMedium, IncomeDark, IncomeAccent]
  }

  /** The header colour: the band's shade of the block's palette. */
  function HeaderColor(cat: FinanceCategory, kind: MainCategoryType): (t: Tone)
    ensures t == Shades(kind)[Band(CategoryTotal(cat))]
  {
    var total := CategoryTotal(cat);
    if kind == Expense then
      if total < 500.0 then ExpenseLight
      else if total < 1000.0 then ExpenseMedium
      else ExpenseDark
    else
      if total < 500.0 then IncomeLight
      else if total < 1000.0 then IncomeMedium
      else IncomeDark
  }

  /** The item colour: one shade darker than the header. */
  function ItemColor(cat: FinanceCategory, kind: MainCategoryType): (t: Tone)
    ensures t == Shades(kind)[Band(CategoryTotal(cat)) + 1]
  {
    var total := CategoryTotal(cat);
    if kind == Expense then
      if total < 500.0 then ExpenseMedium
      else if total < 1000.0 then ExpenseDark
      else ExpenseAccent
    else
      if total < 500.0 then IncomeMedium
      else if total < 1000.0 then IncomeDark
      else IncomeAccent
  }

  /** The item a fresh "Neue Position" starts as. */
  function NewItem(id: string): FinanceItem {
    FinanceItem(id, "Neue Position", 0.0, Monthly)
  }

  /**
   * Appends one new item (amount 0, monthly) under the clock-derived `id`;
   * the existing items and the category total are unchanged.
   */
  function AddItem(cat: FinanceCategory, id: string): (r: FinanceCategory)
    ensures |r.items| == |cat.items| + 1
    ensures r.items[..|cat.items|] == cat.items
    ensures var added := r.items[|cat.items|];
              added.id == id && added.amount == 0.0 && added.frequency == Monthly
    ensures r.id == cat.id && r.name == cat.name && r.isExpanded == cat.isExpanded
    ensures CategoryTotal(r) == CategoryTotal(cat)
  {
    var r := cat.(items := cat.items + [NewItem(id)]);
    ItemsTotalAppend(cat.items, [NewItem(id)], SkipOneTime);
    assert [NewItem(id)][..0] == [];
    assert r.items[..|cat.items|] == cat.items;
    r
  }

  function HasId(itemId: string): FinanceItem -> bool {
    (item: FinanceItem) => item.id == itemId
  }

  /** Replaces exactly the items with id `itemId` by `updated`, keeping length and order. */
  function UpdateItem(cat: FinanceCategory, itemId: string, updated: FinanceItem): (r: FinanceCategory)
    ensures |r.items| == |cat.items|
    ensures forall i :: 0 <= i < |cat.items| ==>
              r.items[i] == (if cat.items[i].id == itemId then updated else cat.items[i])
    ensures r.id == cat.id && r.name == cat.name && r.isExpanded == cat.isExpanded
  {
    cat.(items := ListOps.ReplaceWhere(cat.items, HasId(itemId), updated))
  }

  /** Applying the same item update twice is applying it once. */
  lemma UpdateItemIdempotent(cat: FinanceCategory, itemId: string, updated: FinanceItem)
    ensures UpdateItem(UpdateItem(cat, itemId, updated), itemId, updated) == UpdateItem(cat, itemId, updated)
  {
    ListOps.ReplaceWhereIdempotent(cat.items, HasId(itemId), updated);
  }

  function LacksId(itemId: string): FinanceItem -> bool {
    (item: FinanceItem) => item.id != itemId
  }

  /** Removes exactly the items with id `itemId`, keeping the others in order. */
  function DeleteItem(cat: FinanceCategory, itemId: string): (r: FinanceCategory)
    ensures forall k :: 0 <= k < |r.items| ==> r.items[k].id != itemId
    ensures forall x :: multiset(r.items)[x] == if x.id == itemId then 0 else multiset(cat.items)[x]
    ensures (forall k :: 0 <= k < |cat.items| ==> cat.items[k].id != itemId) ==> r.items == cat.items
    ensures forall k :: 0 <= k < |cat.items| && cat.items[k].id == itemId &&
                        (forall j :: 0 <= j < |cat.items| && j != k ==> cat.items[j].id != itemId) ==>
                          r.items == cat.items[..k] + cat.items[k + 1..]
    ensures r.id == cat.id && r.name == cat.name && r.isExpanded == cat.isExpanded
  {
    var kept := ListOps.Filter(cat.items, LacksId(itemId));
    forall x ensures multiset(kept)[x] == if x.id == itemId then 0 else multiset(cat.items)[x] {
      ListOps.FilterMultiset(cat.items, LacksId(itemId), x);
    }
    assert (forall k :: 0 <= k < |cat.items| ==> cat.items[k].id != itemId) ==> kept == cat.items by {
      if forall k :: 0 <= k < |cat.items| ==> cat.items[k].id != itemId {
        ListOps.FilterAllKept(cat.items, LacksId(itemId));
      }
    }
    forall k | 0 <= k < |cat.items| && cat.items[k].id == itemId &&
               (forall j :: 0 <= j < |cat.items| && j != k ==> cat.items[j].id != itemId)
      ensures kept == cat.items[..k] + cat.items[k + 1..]
    {
      ListOps.FilterDropsOne(cat.items, LacksId(itemId), k);
    }
    cat.(items := kept)
  }

  /** Deleting a freshly added item restores the category. */
  lemma DeleteUndoesAdd(cat: FinanceCategory, id: string)
    requires forall i :: 0 <= i < |cat.items| ==> cat.items[i].id != id
    ensures DeleteItem(AddItem(cat, id), id) == cat
  {
    ListOps.FilterAppend(cat.items, [NewItem(id)], LacksId(id));
    ListOps.FilterAllKept(cat.items, LacksId(id));
    assert ListOps.Filter([NewItem(id)], LacksId(id)) == [];
    assert cat.items + [] == cat.items;
  }

  /** Deleting removes exactly the monthly figures of the deleted items from the total. */
  lemma {:induction false} DeleteSplitsTotal(items: seq<FinanceItem>, itemId: string, p: OneTimePolicy)
    ensures ItemsTotal(items, p)
         == ItemsTotal(ListOps.Filter(items, LacksId(itemId)), p) + ItemsTotal(ListOps.Filter(items, HasId(itemId)), p)
    decreases |items|
  {
    if |items| > 0 {
      var rest := items[1..];
      DeleteSplitsTotal(rest, itemId, p);
      ItemsTotalFirst(items, p);
      if items[0].id == itemId {
        ItemsTotalCons(items[0], ListOps.Filter(rest, HasId(itemId)), p);
      } else {
        ItemsTotalCons(items[0], ListOps.Filter(rest, LacksId(itemId)), p);
      }
    }
  }

  lemma LastSplitsTotal(last: FinanceItem, itemId: string, p: OneTimePolicy)
    ensures ItemMonthly(last, p)
         == ItemsTotal(ListOps.Filter([last], LacksId(itemId)), p) + ItemsTotal(ListOps.Filter([last], HasId(itemId)), p)
  {
    assert ItemsTotal([last], p) == ItemMonthly(last, p) by { assert [last][..0] == []; }
    if last.id == itemId {
      assert ListOps.Filter([last], HasId(itemId)) == [last];
      assert ListOps.Filter([last], LacksId(itemId)) == [];
    } else {
      assert ListOps.Filter([last], LacksId(itemId)) == [last];
      assert ListOps.Filter([last], HasId(itemId)) == [];
    }
  }
}

=== FILE: finance_types.dfy ===
/**
 * The data model of the budgeting and projection screens: finance items grouped
 * into categories, categories grouped into an expense or income block, and the
 * investment list with the projection parameters.
 */
module FinanceTypes {
  import opened Wrappers

  /** How often an amount recurs: once ('1x'), weekly ('w'), monthly ('m') or yearly ('j'). */
  datatype Frequency = OneTime | Weekly | Monthly | Yearly

  /** The smallest block: one named amount with its cadence. */
  datatype FinanceItem = FinanceItem(id: string, name: string, amount: real, frequency: Frequency)

  /** A category such as "Haus" or "Mobilität", owning its items. */
  datatype FinanceCategory = FinanceCategory(
    id: string, name: string, items: seq<FinanceItem>, isExpanded: bool)

  datatype MainCategoryType = Expense | Income

  /** The expense block or the income block, owning its categories. */
  datatype MainCategory = MainCategory(kind: MainCategoryType, categories: seq<FinanceCategory>)

  /** A predefined category: its name and the names of the items it starts with. */
  datatype CategoryTemplate = CategoryTemplate(name: string, defaultItems: seq<string>)

  /**
   * An investment vehicle. `annualReturn` is a percentage. `reinvestEnabled`
   * is optional; when absent the caller's default applies. `durationMonths`
   * absent (or 0) means contributions never stop; it only matters for
   * recurring investments.
   */
  datatype Investment = Investment(
    id: string,
    name: string,
    amount: real,
    annualReturn: real,
    frequency: Frequency,
    reinvestEnabled: Option<bool>,
    durationMonths: Option<int>)

  /** The projection input as stored by the finance context. */
  datatype PrognoseData = PrognoseData(
    currentAssets: real,
    liquidAssets: real,
    investments: seq<Investment>,
    inflationRate: real,
    yearsToProject: int)

  /** The palette entries (the theme's `financeColors`) the screens choose between. */
  datatype Tone =
    | IncomeLight | IncomeMedium | IncomeDark | IncomeAccent
    | ExpenseLight | ExpenseMedium | ExpenseDark | ExpenseAccent
    | Accent

  /** The yearly return of an amount at a percentage rate. */
  function PercentOf(amount: real, ratePct: real): real {
    amount * (ratePct / 100.0)
  }
}

=== FILE: list_ops.dfy ===
/**
 * The list updates the editing screens perform: `map` that replaces matching
 * elements, `filter`, and dnd-kit's `arrayMove`.
 */
module ListOps {

  /** `s.map(x => hit(x) ? y : x)`: every matching element becomes `y`, the rest stay in place. */
  function ReplaceWhere<T>(s: seq<T>, hit: T -> bool, y: T): (r: seq<T>)
    ensures |r| == |s|
    ensures forall i :: 0 <= i < |s| ==> r[i] == (if hit(s[i]) then y else s[i])
    decreases |s|
  {
    if |s| == 0 then []
    else [if hit(s[0]) then y else s[0]] + ReplaceWhere(s[1..], hit, y)
  }

  /** Replacing twice with the same value is replacing once. */
  lemma ReplaceWhereIdempotent<T>(s: seq<T>, hit: T -> bool, y: T)
    ensures ReplaceWhere(ReplaceWhere(s, hit, y), hit, y) == ReplaceWhere(s, hit, y)
  {
  }

  /** `s.filter(keep)`: the kept elements, in their original order. */
  function Filter<T>(s: seq<T>, keep: T -> bool): (r: seq<T>)
    ensures |r| <= |s|
    ensures forall k :: 0 <= k < |r| ==> keep(r[k]) && r[k] in s
    ensures forall i :: 0 <= i < |s| && keep(s[i]) ==> s[i] in r
    decreases |s|
  {
    if |s| == 0 then []
    else if keep(s[0]) then [s[0]] + Filter(s[1..], keep)
    else Filter(s[1..], keep)
  }

  /** Filtering distributes over concatenation, so it keeps the relative order of what it keeps. */
  lemma {:induction false} FilterAppend<T>(a: seq<T>, b: seq<T>, keep: T -> bool)
    ensures Filter(a + b, keep) == Filter(a, keep) + Filter(b, keep)
    decreases |a|
  {
    if |a| > 0 {
      assert (a + b)[1..] == a[1..] + b;
      FilterAppend(a[1..], b, keep);
    } else {
      assert a + b == b;
    }
  }

  /** Filtering keeps every kept element with its multiplicity and drops every other one. */
  lemma {:induction false} FilterMultiset<T>(s: seq<T>, keep: T -> bool, x: T)
    ensures multiset(Filter(s, keep))[x] == if keep(x) then multiset(s)[x] else 0
    decreases |s|
  {
    if |s| > 0 {
      assert s == [s[0]] + s[1..];
      FilterMultiset(s[1..], keep, x);
    }
  }

  /** Filtering a list with no kept elements removed leaves it as it was. */
  lemma {:induction false} FilterAllKept<T>(s: seq<T>, keep: T -> bool)
    requires forall i :: 0 <= i < |s| ==> keep(s[i])
    ensures Filter(s, keep) == s
    decreases |s|
  {
    if |s| > 0 {
      FilterAllKept(s[1..], keep);
    }
  }

  /** Filtering out the one element that fails keeps all the others, in their order. */
  lemma {:induction false} FilterDropsOne<T>(s: seq<T>, keep: T -> bool, k: int)
    requires 0 <= k < |s| && !keep(s[k])
    requires forall j :: 0 <= j < |s| && j != k ==> keep(s[j])
    ensures Filter(s, keep) == s[..k] + s[k + 1..]
    decreases |s|
  {
    if k == 0 {
      FilterAllKept(s[1..], keep);
    } else {
      FilterDropsOne(s[1..], keep, k - 1);
      assert Filter(s, keep) == [s[0]] + Filter(s[1..], keep);
      DropAfterFirst(s, k);
    }
  }

  /** Helper: dropping position `k > 0` commutes with splitting off the first element. */
  lemma DropAfterFirst<T>(s: seq<T>, k: int)
    requires 0 < k < |s|
    ensures [s[0]] + (s[1..][..k - 1] + s[1..][k..]) == s[..k] + s[k + 1..]
  {
    assert s[..k] == [s[0]] + s[1..][..k - 1];
    assert s[k + 1..] == s[1..][k..];
  }

  /**
   * `arrayMove(s, from, to)`: the element at `from` is taken out and inserted
   * at `to`; everything else keeps its relative order.
   */
  function Move<T>(s: seq<T>, from: int, to: int): (r: seq<T>)
    requires 0 <= from < |s| && 0 <= to < |s|
    ensures |r| == |s|
    ensures r[to] == s[from]
    ensures forall i :: 0 <= i < |s| && i < from && i < to ==> r[i] == s[i]
    ensures forall i :: 0 <= i < |s| && i > from && i > to ==> r[i] == s[i]
    ensures forall i :: from < i <= to ==> r[i - 1] == s[i]
    ensures forall i :: to <= i < from ==> r[i + 1] == s[i]
  {
    var rest := s[..from] + s[from + 1..];
    rest[..to] + [s[from]] + rest[to..]
  }

  /** A move is a permutation. */
  lemma MovePermutes<T>(s: seq<T>, from: int, to: int)
    requires 0 <= from < |s| && 0 <= to < |s|
    ensures multiset(Move(s, from, to)) == multiset(s)
  {
    var rest := s[..from] + s[from + 1..];
    assert s == s[..from] + [s[from]] + s[from + 1..];
    assert multiset(s) == multiset(rest) + multiset{s[from]};
    assert rest == rest[..to] + rest[to..];
    assert multiset(Move(s, from, to)) == multiset(rest[..to]) + multiset{s[from]} + multiset(rest[to..]);
  }

  /** Moving back undoes a move. */
  lemma MoveBack<T>(s: seq<T>, from: int, to: int)
    requires 0 <= from < |s| && 0 <= to < |s|
    ensures Move(Move(s, from, to), to, from) == s
  {
    var m := Move(s, from, to);
    var r := Move(m, to, from);
    forall i | 0 <= i < |s|
      ensures r[i] == s[i]
    {
      if i == from {
      } else if i < from && i < to {
      } else if i > from && i > to {
      } else if from < i <= to {
        var k := i - 1;
        assert from <= k < to;
        assert r[k + 1] == m[k];
        var j := k + 1;
        assert m[j - 1] == s[j];
      } else {
        var k := i + 1;
        assert to < k <= from;
        assert r[k - 1] == m[k];
        var j := k - 1;
        assert m[j + 1] == s[j];
      }
    }
  }
}

=== FILE: main_block.dfy ===
/**
 * The expense or income block: its header total, drag-and-drop reordering of
 * its categories, and adding (from a template), editing and deleting
 * categories.
 */
module MainBlock {
  import opened Wrappers
  import opened FinanceTypes
  import opened Cadence
  import ListOps
  import Budget

  /**
   * The header total: weekly x4.33, yearly /12, everything else (one-time
   * included) at face amount, so it exceeds the monthly total by exactly the
   * one-time amounts.
   */
  function HeaderTotal(mc: MainCategory): (r: real)
    ensures r == Budget.MonthlyTotal(mc) + CategoriesOneTimeFace(mc.categories)
  {
    CategoriesKeepAddsOneTimeFace(mc.categories);
    CategoriesTotal(mc.categories, KeepOneTime)
  }

  predicate HasCategory(mc: MainCategory, id: string) {
    exists k :: 0 <= k < |mc.categories| && mc.categories[k].id == id
  }

  /** `findIndex` by id: the first position holding `id`, or -1. */
  function IndexOfId(cats: seq<FinanceCategory>, id: string): (k: int)
    ensures -1 <= k < |cats|
    ensures k >= 0 ==> cats[k].id == id && forall j :: 0 <= j < k ==> cats[j].id != id
    ensures k == -1 <==> forall j :: 0 <= j < |cats| ==> cats[j].id != id
    decreases |cats|
  {
    if |cats| == 0 then -1
    else if cats[0].id == id then 0
    else
      var k := IndexOfId(cats[1..], id);
      if k == -1 then -1 else k + 1
  }

  /**
   * The end of a drag: without a drop target, or dropped on itself, nothing
   * changes; otherwise the dragged category moves to the target's position.
   * The drag-and-drop library only reports ids of the listed categories.
   */
  function DragEnd(mc: MainCategory, activeId: string, overId: Option<string>): (r: MainCategory)
    requires HasCategory(mc, activeId)
    requires overId.Some? ==> HasCategory(mc, overId.value)
    ensures overId.None? || overId.value == activeId ==> r == mc
    ensures r.kind == mc.kind && |r.categories| == |mc.categories|
    ensures multiset(r.categories) == multiset(mc.categories)
    ensures overId.Some? && overId.value != activeId ==>
              r.categories[IndexOfId(mc.categories, overId.value)]
              == mc.categories[IndexOfId(mc.categories, activeId)]
  {
    if overId.Some? && activeId != overId.value then
      var oldIndex := IndexOfId(mc.categories, activeId);
      var newIndex := IndexOfId(mc.categories, overId.value);
      ListOps.MovePermutes(mc.categories, oldIndex, newIndex);
      mc.(categories := ListOps.Move(mc.categories, oldIndex, newIndex))
    else mc
  }

  /** Dragging a category back onto the place it came from restores the order. */
  lemma DragBack(mc: MainCategory, activeId: string, overId: string)
    requires HasCategory(mc, activeId) && HasCategory(mc, overId) && activeId != overId
    ensures var from := IndexOfId(mc.categories, activeId);
            var to := IndexOfId(mc.categories, overId);
            ListOps.Move(DragEnd(mc, activeId, Some(overId)).categories, to, from) == mc.categories
  {
    ListOps.MoveBack(mc.categories, IndexOfId(mc.categories, activeId), IndexOfId(mc.categories, overId));
  }

  /** Decimal digits of a natural number, as template literals print it. */
  function NatToString(n: nat): (s: string)
    ensures |s| >= 1
    ensures forall i :: 0 <= i < |s| ==> '0' <= s[i] <= '9'
    decreases n
  {
    var digit := ['0' + (n % 10) as char];
    if n < 10 then digit else NatToString(n / 10) + digit
  }

  /** The number a string of decimal digits denotes, read most significant digit first. */
  function DecimalValue(s: string): nat
    requires forall i :: 0 <= i < |s| ==> '0' <= s[i] <= '9'
    decreases |s|
  {
    if |s| == 0 then 0
    else DecimalValue(s[..|s| - 1]) * 10 + (s[|s| - 1] as int - '0' as int)
  }

  /** Reading the printed digits back gives the number: printing loses nothing. */
  lemma {:induction false} NatToStringRoundTrip(n: nat)
    ensures DecimalValue(NatToString(n)) == n
    decreases n
  {
    var s := NatToString(n);
    assert s[..|s| - 1] == if n < 10 then [] else NatToString(n / 10);
    if n >= 10 {
      NatToStringRoundTrip(n / 10);
    }
  }

  /** Different numbers print differently. */
  lemma NatToStringInjective(m: nat, n: nat)
    requires NatToString(m) == NatToString(n)
    ensures m == n
  {
    NatToStringRoundTrip(m);
    NatToStringRoundTrip(n);
  }

  /** The item ids a template gets, `stamp-0`, `stamp-1`, ..., are pairwise different. */
  lemma TemplateIdsDistinct(stamp: string, i: nat, j: nat)
    requires i != j
    ensures stamp + "-" + NatToString(i) != stamp + "-" + NatToString(j)
  {
    if stamp + "-" + NatToString(i) == stamp + "-" + NatToString(j) {
      var k := |stamp + "-"|;
      assert (stamp + "-" + NatToString(i))[k..] == NatToString(i);
      assert (stamp + "-" + NatToString(j))[k..] == NatToString(j);
      NatToStringInjective(i, j);
    }
  }

  /** The category a template starts as, with ids derived from one clock reading `stamp`. */
  function FromTemplate(template: CategoryTemplate, stamp: string): FinanceCategory {
    FinanceCategory(
      stamp,
      template.name,
      seq(|template.defaultItems|, i requires 0 <= i < |template.defaultItems| =>
        FinanceItem(stamp + "-" + NatToString(i), template.defaultItems[i], 0.0, Monthly)),
      true)
  }

  /**
   * Appends one category built from `template`: one item per default item
   * name, each with amount 0 and frequency monthly, expanded. The other
   * categories and the monthly total are unchanged.
   */
  function AddCategory(mc: MainCategory, template: CategoryTemplate, stamp: string): (r: MainCategory)
    ensures r.kind == mc.kind
    ensures |r.categories| == |mc.categories| + 1
    ensures r.categories[..|mc.categories|] == mc.categories
    ensures var added := r.categories[|mc.categories|];
              && added.id == stamp && added.name == template.name && added.isExpanded
              && |added.items| == |template.defaultItems|
              && forall i :: 0 <= i < |added.items| ==>
                   added.items[i].id == stamp + "-" + NatToString(i)
                   && added.items[i].name == template.defaultItems[i]
                   && added.items[i].amount == 0.0 && added.items[i].frequency == Monthly
    ensures var added := r.categories[|mc.categories|];
      forall i, j :: 0 <= i < j < |added.items| ==> added.items[i].id != added.items[j].id
    ensures Budget.MonthlyTotal(r) == Budget.MonthlyTotal(mc)
  {
    var added := FromTemplate(template, stamp);
    assert forall i, j :: 0 <= i < j < |added.items| ==> added.items[i].id != added.items[j].id by {
      forall i, j | 0 <= i < j < |added.items|
        ensures added.items[i].id != added.items[j].id
      {
        TemplateIdsDistinct(stamp, i, j);
      }
    }
    var r := mc.(categories := mc.categories + [added]);
    Budget.MonthlyTotalAddCategory(mc, added);
    ZeroItemsTotal(added.items);
    assert r.categories[..|mc.categories|] == mc.categories;
    r
  }

  /** Items that all have amount 0 have monthly total 0. */
  lemma {:induction false} ZeroItemsTotal(items: seq<FinanceItem>)
    requires forall i :: 0 <= i < |items| ==> items[i].amount == 0.0
    ensures ItemsTotal(items, SkipOneTime) == 0.0
    decreases |items|
  {
    if |items| > 0 {
      ZeroItemsTotal(items[..|items| - 1]);
    }
  }

  function CategoryHasId(id: string): FinanceCategory -> bool {
    (c: FinanceCategory) => c.id == id
  }

  function CategoryLacksId(id: string): FinanceCategory -> bool {
    (c: FinanceCategory) => c.id != id
  }

  /** Replaces exactly the categories with id `id` by `updated`, keeping length and order. */
  function UpdateCategory(mc: MainCategory, id: string, updated: FinanceCategory): (r: MainCategory)
    ensures r.kind == mc.kind && |r.categories| == |mc.categories|
    ensures forall i :: 0 <= i < |mc.categories| ==>
              r.categories[i] == (if mc.categories[i].id == id then updated else mc.categories[i])
  {
    mc.(categories := ListOps.ReplaceWhere(mc.categories, CategoryHasId(id), updated))
  }

  /** Removes exactly the categories with id `id`, keeping the others in order. */
  function DeleteCategory(mc: MainCategory, id: string): (r: MainCategory)
    ensures r.kind == mc.kind
    ensures forall k :: 0 <= k < |r.categories| ==> r.categories[k].id != id
    ensures forall c :: multiset(r.categories)[c] == if c.id == id then 0 else multiset(mc.categories)[c]
    ensures !HasCategory(mc, id) ==> r.categories == mc.categories
    ensures forall k :: 0 <= k < |mc.categories| && mc.categories[k].id == id &&
                        (forall j :: 0 <= j < |mc.categories| && j != k ==> mc.categories[j].id != id) ==>
                          r.categories == mc.categories[..k] + mc.categories[k + 1..]
  {
    var kept := ListOps.Filter(mc.categories, CategoryLacksId(id));
    forall c ensures multiset(kept)[c] == if c.id == id then 0 else multiset(mc.categories)[c] {
      ListOps.FilterMultiset(mc.categories, CategoryLacksId(id), c);
    }
    assert !HasCategory(mc, id) ==> kept == mc.categories by {
      if !HasCategory(mc, id) {
        ListOps.FilterAllKept(mc.categories, CategoryLacksId(id));
      }
    }
    forall k | 0 <= k < |mc.categories| && mc.categories[k].id == id &&
               (forall j :: 0 <= j < |mc.categories| && j != k ==> mc.categories[j].id != id)
      ensures kept == mc.categories[..k] + mc.categories[k + 1..]
    {
      ListOps.FilterDropsOne(mc.categories, CategoryLacksId(id), k);
    }
    mc.(categories := kept)
  }

  /** Deleting a freshly added category restores the block. */
  lemma DeleteUndoesAdd(mc: MainCategory, template: CategoryTemplate, stamp: string)
    requires !HasCategory(mc, stamp)
    ensures DeleteCategory(AddCategory(mc, template, stamp), stamp) == mc
  {
    var added := FromTemplate(template, stamp);
    ListOps.FilterAppend(mc.categories, [added], CategoryLacksId(stamp));
    ListOps.FilterAllKept(mc.categories, CategoryLacksId(stamp));
    assert ListOps.Filter([added], CategoryLacksId(stamp)) == [];
    assert mc.categories + [] == mc.categories;
  }
}

=== FILE: projection.dfy ===
/**
 * The projection simulator: starting from the liquid assets and the
 * investment list, year by year it adds the annual savings, funds the
 * recurring plans month by month from liquid capital (partially when
 * capital runs short, never past a plan's duration), applies each
 * investment's yearly return (paying it out to liquid capital when the
 * investment does not reinvest), erodes liquid capital by inflation and
 * clamps it at 0. It emits one sample per year, year 0 included.
 */
module Projection {
  import opened Wrappers
  import opened FinanceTypes
  import opened Cadence
  import opened RealSums
  import Affordability

  /** Whether an investment keeps its return: `toggles[id] ?? reinvestEnabled ?? true`. */
  function Reinvests(toggles: map<string, bool>, inv: Investment): (r: bool)
    ensures r <==> (inv.id in toggles && toggles[inv.id]) || (inv.id !in toggles && inv.reinvestEnabled != Some(false))
  {
    if inv.id in toggles then toggles[inv.id] else inv.reinvestEnabled.GetOr(true)
  }

  /** A balance after a year at `ratePct` percent with the return kept. */
  function Compounded(b: real, ratePct: real): (r: real)
    ensures r == b + PercentOf(b, ratePct)
  {
    b * (1.0 + ratePct / 100.0)
  }

  /**
   * The simulation state: liquid capital, and per investment (by position)
   * its balance and its count of elapsed contribution months.
   */
  datatype SimState = SimState(liquid: real, balances: seq<real>, elapsed: seq<int>)

  predicate Shaped(st: SimState, invs: seq<Investment>) {
    |st.balances| == |invs| && |st.elapsed| == |invs|
  }

  predicate NonNegative(s: seq<real>) {
    forall i :: 0 <= i < |s| ==> s[i] >= 0.0
  }

  /**
   * Year 0: one-time investments hold their amount, which leaves liquid
   * capital at once; recurring ones start at 0 with no month elapsed.
   */
  function InitialState(invs: seq<Investment>, liquidAssets: real): (st: SimState)
    ensures Shaped(st, invs)
    ensures st.liquid == liquidAssets - Affordability.OneTimeTotal(invs)
    ensures Sum(st.balances) == Affordability.OneTimeTotal(invs)
    ensures forall i :: 0 <= i < |invs| ==>
              st.elapsed[i] == 0 && st.balances[i] == (if invs[i].frequency == OneTime then invs[i].amount else 0.0)
    decreases |invs|
  {
    if |invs| == 0 then SimState(liquidAssets, [], [])
    else
      var st := InitialState(invs[..|invs| - 1], liquidAssets);
      var inv := invs[|invs| - 1];
      var start := if inv.frequency == OneTime then inv.amount else 0.0;
      var balances := st.balances + [start];
      assert balances[..|balances| - 1] == st.balances;
      SimState(st.liquid - start, balances, st.elapsed + [0])
  }

  /** A month's contribution: the amount, 4.33 weekly amounts, or a yearly amount in month 12 only. */
  function MonthlyContribution(inv: Investment, month: int): (c: real)
    ensures inv.frequency == Yearly && month != 12 ==> c == 0.0
    ensures inv.frequency != Yearly && inv.frequency != OneTime ==> c == ToMonthly(inv.amount, inv.frequency, SkipOneTime)
    ensures inv.amount >= 0.0 ==> c >= 0.0
  {
    match inv.frequency
    case Monthly => inv.amount
    case Weekly => inv.amount * WeeksPerMonth
    case Yearly => if month == 12 then inv.amount else 0.0
    case OneTime => 0.0
  }

  /** A non-zero duration whose months have all elapsed. */
  predicate CapReached(inv: Investment, count: int)
    ensures inv.durationMonths == None || inv.durationMonths == Some(0) ==> !CapReached(inv, count)
    ensures inv.durationMonths.Some? && inv.durationMonths.value != 0 ==>
              (CapReached(inv, count) <==> count >= inv.durationMonths.value)
  {
    inv.durationMonths.Some? && inv.durationMonths.value != 0 && count >= inv.durationMonths.value
  }

  /** A recurring plan still within its duration. */
  predicate Active(inv: Investment, count: int) {
    inv.frequency != OneTime && !CapReached(inv, count)
  }

  /**
   * One investment's turn in one month: an active plan takes its
   * contribution from liquid capital when that covers it, otherwise whatever
   * positive capital is left; either way its month counter rises by one.
   */
  function FundOne(st: SimState, invs: seq<Investment>, i: int, month: int): (r: SimState)
    requires Shaped(st, invs) && 0 <= i < |invs|
    ensures Shaped(r, invs)
    ensures r.liquid + Sum(r.balances) == st.liquid + Sum(st.balances)
    ensures forall j :: 0 <= j < |invs| && j != i ==> r.balances[j] == st.balances[j] && r.elapsed[j] == st.elapsed[j]
    ensures !Active(invs[i], st.elapsed[i]) ==> r == st
    ensures Active(invs[i], st.elapsed[i]) ==> r.elapsed[i] == st.elapsed[i] + 1
    ensures Active(invs[i], st.elapsed[i]) && st.liquid >= MonthlyContribution(invs[i], month) ==>
              r.liquid == st.liquid - MonthlyContribution(invs[i], month)
    ensures Active(invs[i], st.elapsed[i]) && st.liquid < MonthlyContribution(invs[i], month) ==>
              r.liquid == (if st.liquid < 0.0 then st.liquid else 0.0)
    ensures MonthlyContribution(invs[i], month) == 0.0 ==> r.balances == st.balances
    ensures invs[i].amount >= 0.0 ==> r.balances[i] >= st.balances[i]
    ensures st.liquid >= 0.0 ==> r.liquid >= 0.0
  {
    var inv := invs[i];
    if inv.frequency == OneTime || CapReached(inv, st.elapsed[i]) then st
    else
      var c := MonthlyContribution(inv, month);
      var moved := if st.liquid >= c then c else Max(0.0, st.liquid);
      var balances := st.balances[i := st.balances[i] + moved];
      SumUpdate(st.balances, i, st.balances[i] + moved);
      SimState(st.liquid - moved, balances, st.elapsed[i := st.elapsed[i] + 1])
  }

  /** One month: the investments take their turns in list order, from position `i` on. */
  function FundFrom(st: SimState, invs: seq<Investment>, i: int, month: int): (r: SimState)
    requires Shaped(st, invs) && 0 <= i <= |invs|
    ensures Shaped(r, invs)
    ensures r.liquid + Sum(r.balances) == st.liquid + Sum(st.balances)
    decreases |invs| - i
  {
    if i == |invs| then st
    else FundFrom(FundOne(st, invs, i, month), invs, i + 1, month)
  }

  /**
   * One month's funding from position `i` on advances the counter of every
   * active plan by one (a yearly plan's too, in the months it pays nothing)
   * and leaves every other counter as it is.
   */
  lemma {:induction false} FundFromCounts(st: SimState, invs: seq<Investment>, i: int, month: int)
    requires Shaped(st, invs) && 0 <= i <= |invs|
    ensures var r := FundFrom(st, invs, i, month);
      forall j :: 0 <= j < |invs| ==>
        r.elapsed[j] == (if i <= j && Active(invs[j], st.elapsed[j]) then st.elapsed[j] + 1 else st.elapsed[j])
    decreases |invs| - i
  {
    if i < |invs| {
      var mid := FundOne(st, invs, i, month);
      FundFromCounts(mid, invs, i + 1, month);
      var r := FundFrom(mid, invs, i + 1, month);
      forall j | 0 <= j < |invs|
        ensures r.elapsed[j] == (if i <= j && Active(invs[j], st.elapsed[j]) then st.elapsed[j] + 1 else st.elapsed[j])
      {
        if j != i {
          assert mid.elapsed[j] == st.elapsed[j];
        }
      }
    }
  }

  /**
   * One month's funding from position `i` on leaves the balance of an idle
   * plan, or of one whose contribution is zero this month, as it is; with
   * non-negative amounts no balance falls.
   */
  lemma {:induction false} FundFromBalances(st: SimState, invs: seq<Investment>, i: int, month: int)
    requires Shaped(st, invs) && 0 <= i <= |invs|
    ensures var r := FundFrom(st, invs, i, month);
      && (forall j :: 0 <= j < |invs| && (j < i || !Active(invs[j], st.elapsed[j]) || MonthlyContribution(invs[j], month) == 0.0) ==>
            r.balances[j] == st.balances[j])
      && (forall j :: 0 <= j < |invs| && invs[j].amount >= 0.0 ==> r.balances[j] >= st.balances[j])
    decreases |invs| - i
  {
    if i < |invs| {
      var mid := FundOne(st, invs, i, month);
      FundFromBalances(mid, invs, i + 1, month);
      var r := FundFrom(mid, invs, i + 1, month);
      forall j | 0 <= j < |invs| && (j < i || !Active(invs[j], st.elapsed[j]) || MonthlyContribution(invs[j], month) == 0.0)
        ensures r.balances[j] == st.balances[j]
      {
        if j != i {
          assert mid.elapsed[j] == st.elapsed[j];
        }
      }
    }
  }

  /** Funding never takes liquid capital below zero when it starts at zero or above. */
  lemma {:induction false} FundFromLiquid(st: SimState, invs: seq<Investment>, i: int, month: int)
    requires Shaped(st, invs) && 0 <= i <= |invs| && st.liquid >= 0.0
    ensures FundFrom(st, invs, i, month).liquid >= 0.0
    decreases |invs| - i
  {
    if i < |invs| {
      FundFromLiquid(FundOne(st, invs, i, month), invs, i + 1, month);
    }
  }

  /** The month counter after `k` months: +1 per month while the plan is active. */
  function CountAfter(inv: Investment, count: int, k: nat): (r: int)
    ensures r >= count
    ensures inv.frequency != OneTime && (inv.durationMonths.None? || inv.durationMonths.value == 0) ==> r == count + k
    ensures CapReached(inv, count) || inv.frequency == OneTime ==> r == count
    ensures inv.frequency != OneTime && inv.durationMonths.Some? && 0 < inv.durationMonths.value && count <= inv.durationMonths.value
            ==> r == (if count + k <= inv.durationMonths.value then count + k else inv.durationMonths.value)
    decreases k
  {
    if k == 0 || !Active(inv, count) then count else CountAfter(inv, count + 1, k - 1)
  }

  /** The months `month`..12 of one year, each one funding every plan in list order. */
  function FundMonths(st: SimState, invs: seq<Investment>, month: int): (r: SimState)
    requires Shaped(st, invs) && 1 <= month <= 13
    ensures Shaped(r, invs)
    ensures r.liquid + Sum(r.balances) == st.liquid + Sum(st.balances)
    decreases 13 - month, |invs|
  {
    if month == 13 then st
    else FundMonths(FundFrom(st, invs, 0, month), invs, month + 1)
  }

  /** Over the months `month`..12 each counter advances as CountAfter says. */
  lemma {:induction false} FundMonthsCounts(st: SimState, invs: seq<Investment>, month: int)
    requires Shaped(st, invs) && 1 <= month <= 13
    ensures var r := FundMonths(st, invs, month);
      forall j :: 0 <= j < |invs| ==> r.elapsed[j] == CountAfter(invs[j], st.elapsed[j], 13 - month)
    decreases 13 - month
  {
    if month < 13 {
      var next := FundFrom(st, invs, 0, month);
      FundFromCounts(st, invs, 0, month);
      FundMonthsCounts(next, invs, month + 1);
      MonthCounts(st, next, FundMonths(next, invs, month + 1), invs, 13 - month);
    }
  }

  /**
   * Over the months `month`..12 a plan idle at the start stays idle and its
   * balance is untouched; with non-negative amounts no balance falls.
   */
  lemma {:induction false} FundMonthsBalances(st: SimState, invs: seq<Investment>, month: int)
    requires Shaped(st, invs) && 1 <= month <= 13
    ensures var r := FundMonths(st, invs, month);
      && (forall j :: 0 <= j < |invs| && !Active(invs[j], st.elapsed[j]) ==> r.balances[j] == st.balances[j])
      && (forall j :: 0 <= j < |invs| && invs[j].amount >= 0.0 ==> r.balances[j] >= st.balances[j])
    decreases 13 - month
  {
    if month < 13 {
      var next := FundFrom(st, invs, 0, month);
      FundFromCounts(st, invs, 0, month);
      FundFromBalances(st, invs, 0, month);
      FundMonthsBalances(next, invs, month + 1);
      var r := FundMonths(next, invs, month + 1);
      forall j | 0 <= j < |invs| && !Active(invs[j], st.elapsed[j])
        ensures r.balances[j] == st.balances[j]
      {
        assert next.elapsed[j] == st.elapsed[j];
      }
    }
  }

  /** Helper for FundMonthsCounts: one month's counter step followed by the rest of the year. */
  lemma MonthCounts(st: SimState, next: SimState, r: SimState, invs: seq<Investment>, k: nat)
    requires Shaped(st, invs) && Shaped(next, invs) && Shaped(r, invs) && k >= 1
    requires forall j :: 0 <= j < |invs| ==>
               next.elapsed[j] == (if Active(invs[j], st.elapsed[j]) then st.elapsed[j] + 1 else st.elapsed[j])
    requires forall j :: 0 <= j < |invs| ==> r.elapsed[j] == CountAfter(invs[j], next.elapsed[j], k - 1)
    ensures forall j :: 0 <= j < |invs| ==> r.elapsed[j] == CountAfter(invs[j], st.elapsed[j], k)
  {
    forall j | 0 <= j < |invs|
      ensures r.elapsed[j] == CountAfter(invs[j], st.elapsed[j], k)
    {
      if !Active(invs[j], st.elapsed[j]) {
        assert r.elapsed[j] == CountAfter(invs[j], st.elapsed[j], k - 1);
      }
    }
  }

  /** The yearly return of every balance. */
  function YearReturns(balances: seq<real>, invs: seq<Investment>): (r: seq<real>)
    requires |balances| == |invs|
    ensures |r| == |invs|
    ensures forall i :: 0 <= i < |invs| ==> r[i] == PercentOf(balances[i], invs[i].annualReturn)
  {
    seq(|invs|, i requires 0 <= i < |invs| => PercentOf(balances[i], invs[i].annualReturn))
  }

  /**
   * One investment's return: added to its balance, then moved on to liquid
   * capital when it is non-zero and the investment does not reinvest.
   */
  function ReturnOne(st: SimState, invs: seq<Investment>, toggles: map<string, bool>, i: int): (r: SimState)
    requires Shaped(st, invs) && 0 <= i < |invs|
    ensures Shaped(r, invs) && r.elapsed == st.elapsed
    ensures forall j :: 0 <= j < |invs| && j != i ==> r.balances[j] == st.balances[j]
    ensures r.balances[i] == (if Reinvests(toggles, invs[i]) then Compounded(st.balances[i], invs[i].annualReturn) else st.balances[i])
    ensures r.liquid + Sum(r.balances) == st.liquid + Sum(st.balances) + PercentOf(st.balances[i], invs[i].annualReturn)
  {
    var ret := PercentOf(st.balances[i], invs[i].annualReturn);
    var grown := st.balances[i] + ret;
    var back := if ret == 0.0 || Reinvests(toggles, invs[i]) then 0.0 else ret;
    SumUpdate(st.balances, i, grown - back);
    SimState(st.liquid + back, st.balances[i := grown - back], st.elapsed)
  }

  /** The return step for the investments from position `i` on, in list order. */
  function ReturnsFrom(st: SimState, invs: seq<Investment>, toggles: map<string, bool>, i: int): (r: SimState)
    requires Shaped(st, invs) && 0 <= i <= |invs|
    ensures Shaped(r, invs) && r.elapsed == st.elapsed
    decreases |invs| - i
  {
    if i == |invs| then st else ReturnsFrom(ReturnOne(st, invs, toggles, i), invs, toggles, i + 1)
  }

  /**
   * The return step from position `i` on, per position: a reinvesting
   * balance grows by its return, a paying-out balance stays as it was, and
   * earlier positions are untouched.
   */
  lemma {:induction false} ReturnsFromBalances(st: SimState, invs: seq<Investment>, toggles: map<string, bool>, i: int)
    requires Shaped(st, invs) && 0 <= i <= |invs|
    ensures var r := ReturnsFrom(st, invs, toggles, i);
      && (forall j :: 0 <= j < i ==> r.balances[j] == st.balances[j])
      && (forall j :: i <= j < |invs| ==>
            r.balances[j] == (if Reinvests(toggles, invs[j]) then Compounded(st.balances[j], invs[j].annualReturn) else st.balances[j]))
    decreases |invs| - i
  {
    if i < |invs| {
      var mid := ReturnOne(st, invs, toggles, i);
      ReturnsFromBalances(mid, invs, toggles, i + 1);
      var r := ReturnsFrom(mid, invs, toggles, i + 1);
      forall j | i <= j < |invs|
        ensures r.balances[j] == (if Reinvests(toggles, invs[j]) then Compounded(st.balances[j], invs[j].annualReturn) else st.balances[j])
      {
        if j > i {
          assert mid.balances[j] == st.balances[j];
        }
      }
    }
  }

  /** The return step from position `i` on adds exactly those positions' returns to liquid plus invested. */
  lemma {:induction false} ReturnsFromTotal(st: SimState, invs: seq<Investment>, toggles: map<string, bool>, i: int)
    requires Shaped(st, invs) && 0 <= i <= |invs|
    ensures var r := ReturnsFrom(st, invs, toggles, i);
      r.liquid + Sum(r.balances) == st.liquid + Sum(st.balances) + Sum(YearReturns(st.balances, invs)[i..])
    decreases |invs| - i
  {
    if i < |invs| {
      var mid := ReturnOne(st, invs, toggles, i);
      ReturnsFromTotal(mid, invs, toggles, i + 1);
      var rets := YearReturns(st.balances, invs);
      assert YearReturns(mid.balances, invs)[i + 1..] == rets[i + 1..];
      SumFront(rets[i..]);
      assert rets[i..][1..] == rets[i + 1..];
    }
  }

  /**
   * The return step over all investments: a reinvesting balance grows by
   * its return, a paying-out balance stays as it was, and liquid plus
   * invested grows by exactly the sum of the returns.
   */
  lemma ReturnStep(st: SimState, invs: seq<Investment>, toggles: map<string, bool>)
    requires Shaped(st, invs)
    ensures var r := ReturnsFrom(st, invs, toggles, 0);
      && (forall j :: 0 <= j < |invs| && Reinvests(toggles, invs[j]) ==>
            r.balances[j] == Compounded(st.balances[j], invs[j].annualReturn))
      && (forall j :: 0 <= j < |invs| && !Reinvests(toggles, invs[j]) ==> r.balances[j] == st.balances[j])
      && r.liquid + Sum(r.balances) == st.liquid + Sum(st.balances) + Sum(YearReturns(st.balances, invs))
  {
    ReturnsFromBalances(st, invs, toggles, 0);
    ReturnsFromTotal(st, invs, toggles, 0);
    assert YearReturns(st.balances, invs)[0..] == YearReturns(st.balances, invs);
  }

  /** Liquid capital after a year's inflation: inflation takes its percentage of it. */
  function Deflate(liquid: real, inflationRate: real): (r: real)
    ensures liquid - r == PercentOf(liquid, inflationRate)
    ensures 0.0 <= inflationRate <= 100.0 && liquid >= 0.0 ==> 0.0 <= r <= liquid
  {
    liquid * (1.0 - inflationRate / 100.0)
  }

  /**
   * One projection year: savings in, plans funded for 12 months, returns
   * applied and routed, inflation on liquid capital only, liquid clamped at 0.
   */
  function YearStep(st: SimState, invs: seq<Investment>, toggles: map<string, bool>, annualSavings: real, inflationRate: real): (r: SimState)
    requires Shaped(st, invs)
    ensures Shaped(r, invs)
    ensures r.liquid >= 0.0
  {
    var funded := FundMonths(st.(liquid := st.liquid + annualSavings), invs, 1);
    var grown := ReturnsFrom(funded, invs, toggles, 0);
    grown.(liquid := Max(0.0, Deflate(grown.liquid, inflationRate)))
  }

  /**
   * Inflation acts on liquid capital only: balances and counters come out as
   * without inflation, and liquid capital (up to 100 % inflation) is the
   * inflation-free figure shrunk by the rate, clamped at 0.
   */
  lemma InflationOnLiquidOnly(st: SimState, invs: seq<Investment>, toggles: map<string, bool>, annualSavings: real, inflationRate: real)
    requires Shaped(st, invs)
    ensures YearStep(st, invs, toggles, annualSavings, inflationRate).balances == YearStep(st, invs, toggles, annualSavings, 0.0).balances
    ensures YearStep(st, invs, toggles, annualSavings, inflationRate).elapsed == YearStep(st, invs, toggles, annualSavings, 0.0).elapsed
    ensures inflationRate <= 100.0 ==>
              YearStep(st, invs, toggles, annualSavings, inflationRate).liquid
              == Max(0.0, Deflate(YearStep(st, invs, toggles, annualSavings, 0.0).liquid, inflationRate))
  {
    var grown := ReturnsFrom(FundMonths(st.(liquid := st.liquid + annualSavings), invs, 1), invs, toggles, 0);
    assert Deflate(grown.liquid, 0.0) == grown.liquid;
    if grown.liquid < 0.0 && inflationRate <= 100.0 {
      assert Deflate(grown.liquid, inflationRate) <= 0.0 by {
        NonPositiveProduct(grown.liquid, 1.0 - inflationRate / 100.0);
      }
      assert Deflate(0.0, inflationRate) == 0.0;
    }
  }

  /** Helper: a non-positive number times a non-negative one is non-positive. */
  lemma NonPositiveProduct(a: real, b: real)
    requires a <= 0.0 && b >= 0.0
    ensures a * b <= 0.0
  {
  }

  /** Over a year every counter advances by its plan's active months. */
  lemma YearCounts(st: SimState, invs: seq<Investment>, toggles: map<string, bool>, annualSavings: real, inflationRate: real)
    requires Shaped(st, invs)
    ensures var r := YearStep(st, invs, toggles, annualSavings, inflationRate);
      forall j :: 0 <= j < |invs| ==> r.elapsed[j] == CountAfter(invs[j], st.elapsed[j], 12)
  {
    var saved := st.(liquid := st.liquid + annualSavings);
    var funded := FundMonths(saved, invs, 1);
    FundMonthsCounts(saved, invs, 1);
    assert YearStep(st, invs, toggles, annualSavings, inflationRate).elapsed == funded.elapsed;
  }

  /**
   * The duration cap over a year: a plan that is idle (one-time, or past its
   * duration) at the start of the year receives nothing; its balance
   * changes only by its return, and only when it reinvests.
   */
  lemma DurationCap(st: SimState, invs: seq<Investment>, toggles: map<string, bool>, annualSavings: real, inflationRate: real)
    requires Shaped(st, invs)
    ensures var r := YearStep(st, invs, toggles, annualSavings, inflationRate);
      forall j :: 0 <= j < |invs| && !Active(invs[j], st.elapsed[j]) ==>
        r.balances[j] == (if Reinvests(toggles, invs[j])
                          then Compounded(st.balances[j], invs[j].annualReturn)
                          else st.balances[j])
  {
    var saved := st.(liquid := st.liquid + annualSavings);
    var funded := FundMonths(saved, invs, 1);
    FundMonthsBalances(saved, invs, 1);
    ReturnStep(funded, invs, toggles);
    IdleBalances(st, funded, ReturnsFrom(funded, invs, toggles, 0), invs, toggles);
  }

  /** Helper for DurationCap: a plan that was idle all year changes only by its return. */
  lemma IdleBalances(st: SimState, funded: SimState, grown: SimState, invs: seq<Investment>, toggles: map<string, bool>)
    requires Shaped(st, invs) && Shaped(funded, invs) && Shaped(grown, invs)
    requires forall j :: 0 <= j < |invs| && !Active(invs[j], st.elapsed[j]) ==> funded.balances[j] == st.balances[j]
    requires forall i :: 0 <= i < |invs| && Reinvests(toggles, invs[i]) ==>
               grown.balances[i] == Compounded(funded.balances[i], invs[i].annualReturn)
    requires forall i :: 0 <= i < |invs| && !Reinvests(toggles, invs[i]) ==> grown.balances[i] == funded.balances[i]
    ensures forall j :: 0 <= j < |invs| && !Active(invs[j], st.elapsed[j]) ==>
              grown.balances[j] == (if Reinvests(toggles, invs[j])
                                    then Compounded(st.balances[j], invs[j].annualReturn)
                                    else st.balances[j])
  {
    forall j | 0 <= j < |invs| && !Active(invs[j], st.elapsed[j])
      ensures grown.balances[j] == (if Reinvests(toggles, invs[j])
                                    then Compounded(st.balances[j], invs[j].annualReturn)
                                    else st.balances[j])
    {
      assert funded.balances[j] == st.balances[j];
    }
  }

  /** One emitted point of the projection. */
  datatype Sample = Sample(year: int, liquid: real, invested: real)

  function Total(s: Sample): real {
    s.liquid + s.invested
  }

  /** The samples of years `year`..`last`, stepping on from `st`. */
  function Project(st: SimState, invs: seq<Investment>, toggles: map<string, bool>, annualSavings: real, inflationRate: real, year: int, last: int): (r: seq<Sample>)
    requires Shaped(st, invs)
    ensures |r| == (if year <= last then last - year + 1 else 0)
    ensures forall k :: 0 <= k < |r| ==> r[k].year == year + k && r[k].liquid >= 0.0
    decreases if year <= last then last - year + 1 else 0
  {
    if year > last then []
    else
      var next := YearStep(st, invs, toggles, annualSavings, inflationRate);
      var rest := Project(next, invs, toggles, annualSavings, inflationRate, year + 1, last);
      assert |rest| == last - year;
      [Sample(year, next.liquid, Sum(next.balances))] + rest
  }

  /**
   * The projection: one sample per year from 0 to `yearsToProject`. Year 0
   * reports liquid capital clamped at 0 while the simulation carries on
   * from the unclamped value.
   */
  function CalculatePrognose(data: PrognoseData, monthlySavings: real, toggles: map<string, bool>): (r: seq<Sample>)
    ensures |r| == (if data.yearsToProject > 0 then data.yearsToProject else 0) + 1
    ensures forall k :: 0 <= k < |r| ==> r[k].year == k
    ensures forall k :: 0 <= k < |r| ==> r[k].liquid >= 0.0
    ensures r[0].invested == Affordability.OneTimeTotal(data.investments)
    ensures r[0].liquid == Max(0.0, data.liquidAssets - Affordability.OneTimeTotal(data.investments))
  {
    var st := InitialState(data.investments, data.liquidAssets);
    var oneTime := Affordability.OneTimeTotal(data.investments);
    assert st.liquid == data.liquidAssets - oneTime && Sum(st.balances) == oneTime;
    ProjectFrom(st, data.investments, toggles, monthlySavings * 12.0, data.inflationRate, data.yearsToProject)
  }

  /** The samples of a projection from year-0 state `st`: liquid capital clamped at 0 in year 0, then the simulated years. */
  function ProjectFrom(st: SimState, invs: seq<Investment>, toggles: map<string, bool>, annualSavings: real, inflationRate: real, last: int): (r: seq<Sample>)
    requires Shaped(st, invs)
    ensures |r| == (if last > 0 then last else 0) + 1
    ensures forall k :: 0 <= k < |r| ==> r[k].year == k && r[k].liquid >= 0.0
    ensures r[0] == Sample(0, Max(0.0, st.liquid), Sum(st.balances))
  {
    var rest := Project(st, invs, toggles, annualSavings, inflationRate, 1, last);
    var r := [Sample(0, Max(0.0, st.liquid), Sum(st.balances))] + rest;
    assert forall k :: 1 <= k < |r| ==> r[k] == rest[k - 1];
    r
  }

  /**
   * A yearly plan pays only in month 12, but its counter also runs in months
   * 1 to 11: once the counter reaches the duration before December, the
   * remaining months of the year move nothing into the plan.
   */
  lemma {:induction false} YearlyCapBeforeDecember(st: SimState, invs: seq<Investment>, month: int, j: int)
    requires Shaped(st, invs) && 1 <= month <= 12 && 0 <= j < |invs|
    requires invs[j].frequency == Yearly
    requires CapReached(invs[j], CountAfter(invs[j], st.elapsed[j], 12 - month))
    ensures FundMonths(st, invs, month).balances[j] == st.balances[j]
    decreases 13 - month
  {
    var next := FundFrom(st, invs, 0, month);
    FundFromCounts(st, invs, 0, month);
    FundFromBalances(st, invs, 0, month);
    if month < 12 {
      assert MonthlyContribution(invs[j], month) == 0.0;
      YearlyCapBeforeDecember(next, invs, month + 1, j);
    }
  }

  /**
   * A yearly plan whose duration runs out before month 12 of the year
   * contributes nothing that year, even with ample liquid capital: its
   * balance changes only by its return. In particular a yearly plan limited
   * to fewer than 12 months never receives a contribution.
   */
  lemma ShortYearlyPlanNeverPays(st: SimState, invs: seq<Investment>, toggles: map<string, bool>, annualSavings: real, inflationRate: real, j: int)
    requires Shaped(st, invs) && 0 <= j < |invs|
    requires invs[j].frequency == Yearly && invs[j].durationMonths.Some?
    requires 0 < invs[j].durationMonths.value <= st.elapsed[j] + 11
    ensures YearStep(st, invs, toggles, annualSavings, inflationRate).balances[j]
            == (if Reinvests(toggles, invs[j]) then Compounded(st.balances[j], invs[j].annualReturn) else st.balances[j])
  {
    var saved := st.(liquid := st.liquid + annualSavings);
    YearlyCapBeforeDecember(saved, invs, 1, j);
    ReturnStep(FundMonths(saved, invs, 1), invs, toggles);
  }

  /**
   * With no inflation, non-negative savings, amounts and returns, a year
   * keeps every balance non-negative and its total is at least the clamped
   * liquid capital plus the balances it started from.
   */
  lemma YearStepGrowth(st: SimState, invs: seq<Investment>, toggles: map<string, bool>, annualSavings: real, inflationRate: real)
    requires Shaped(st, invs) && NonNegative(st.balances)
    requires inflationRate == 0.0 && annualSavings >= 0.0
    requires forall i :: 0 <= i < |invs| ==> invs[i].amount >= 0.0 && invs[i].annualReturn >= 0.0
    ensures var r := YearStep(st, invs, toggles, annualSavings, inflationRate);
      NonNegative(r.balances) && r.liquid + Sum(r.balances) >= Max(0.0, st.liquid) + Sum(st.balances)
  {
    var saved := st.(liquid := st.liquid + annualSavings);
    var funded := FundMonths(saved, invs, 1);
    FundingNeverShrinks(saved, invs);
    ReturnsNeverShrink(funded, invs, toggles);
    var grown := ReturnsFrom(funded, invs, toggles, 0);
    assert Deflate(grown.liquid, inflationRate) == grown.liquid;
    ClampedGrowth(st.liquid, Sum(st.balances), annualSavings, funded.liquid, Sum(funded.balances), grown.liquid, Sum(grown.balances));
  }

  /**
   * Helper for YearStepGrowth, on the figures alone: savings moved into
   * balances that only grow leave at least the clamped start once the end is
   * clamped.
   */
  lemma ClampedGrowth(liquid0: real, sum0: real, savings: real, liquid1: real, sum1: real, liquid2: real, sum2: real)
    requires savings >= 0.0
    requires liquid1 + sum1 == liquid0 + savings + sum0 && sum0 <= sum1
    requires sum1 <= sum2 && liquid1 + sum1 <= liquid2 + sum2
    ensures Max(0.0, liquid2) + sum2 >= Max(0.0, liquid0) + sum0
  {
  }

  /** Helper for YearStepGrowth: with non-negative amounts a year's funding only moves capital into balances. */
  lemma FundingNeverShrinks(saved: SimState, invs: seq<Investment>)
    requires Shaped(saved, invs) && NonNegative(saved.balances)
    requires forall i :: 0 <= i < |invs| ==> invs[i].amount >= 0.0
    ensures var funded := FundMonths(saved, invs, 1);
      NonNegative(funded.balances) && Sum(saved.balances) <= Sum(funded.balances)
  {
    var funded := FundMonths(saved, invs, 1);
    FundMonthsBalances(saved, invs, 1);
    SumMonotone(saved.balances, funded.balances);
    forall i | 0 <= i < |invs|
      ensures funded.balances[i] >= 0.0
    {
      assert funded.balances[i] >= saved.balances[i];
    }
  }

  /** Helper for YearStepGrowth: with non-negative balances and rates the return step takes nothing away. */
  lemma ReturnsNeverShrink(funded: SimState, invs: seq<Investment>, toggles: map<string, bool>)
    requires Shaped(funded, invs) && NonNegative(funded.balances)
    requires forall i :: 0 <= i < |invs| ==> invs[i].annualReturn >= 0.0
    ensures var g := ReturnsFrom(funded, invs, toggles, 0);
      && NonNegative(g.balances)
      && Sum(funded.balances) <= Sum(g.balances)
      && funded.liquid + Sum(funded.balances) <= g.liquid + Sum(g.balances)
  {
    var grown := ReturnsFrom(funded, invs, toggles, 0);
    ReturnStep(funded, invs, toggles);
    var rets := YearReturns(funded.balances, invs);
    forall i | 0 <= i < |invs|
      ensures rets[i] >= 0.0 && grown.balances[i] >= funded.balances[i]
    {
      NonNegProduct(funded.balances[i], invs[i].annualReturn);
    }
    SumNonNeg(rets);
    SumMonotone(funded.balances, grown.balances);
  }

  /** Helper for YearStepGrowth: a non-negative balance earns a non-negative return. */
  lemma NonNegProduct(b: real, ratePct: real)
    requires b >= 0.0 && ratePct >= 0.0
    ensures PercentOf(b, ratePct) >= 0.0
    ensures Compounded(b, ratePct) >= b
  {
  }

  /** Every sample's total is at least `floor`. */
  predicate AtLeast(r: seq<Sample>, floor: real) {
    forall m :: 0 <= m < |r| ==> floor <= Total(r[m])
  }

  /**
   * Totals never fall: the first sample's total is at most every later one's,
   * and the same holds from every later sample on. `NeverFallsPairwise`
   * shows this is the all-pairs statement.
   */
  predicate NeverFalls(r: seq<Sample>)
    decreases |r|
  {
    |r| == 0 || (AtLeast(r[1..], Total(r[0])) && NeverFalls(r[1..]))
  }

  /** A series never falls exactly when no sample's total is below an earlier one's. */
  lemma {:induction false} NeverFallsPairwise(r: seq<Sample>)
    ensures NeverFalls(r) <==> forall k, m :: 0 <= k <= m < |r| ==> Total(r[k]) <= Total(r[m])
    decreases |r|
  {
    if |r| > 0 {
      var rest := r[1..];
      NeverFallsPairwise(rest);
      if NeverFalls(r) {
        forall k, m | 0 <= k <= m < |r|
          ensures Total(r[k]) <= Total(r[m])
        {
          if 0 < k {
            assert r[k] == rest[k - 1] && r[m] == rest[m - 1];
          } else if 0 < m {
            assert r[m] == rest[m - 1];
          }
        }
      }
      if forall k, m :: 0 <= k <= m < |r| ==> Total(r[k]) <= Total(r[m]) {
        forall m | 0 <= m < |rest|
          ensures Total(r[0]) <= Total(rest[m])
        {
          assert rest[m] == r[m + 1];
        }
        forall k, m | 0 <= k <= m < |rest|
          ensures Total(rest[k]) <= Total(rest[m])
        {
          assert rest[k] == r[k + 1] && rest[m] == r[m + 1];
        }
      }
    }
  }

  /** A head no larger than anything after it keeps a non-falling series non-falling. */
  lemma PrependNeverFalls(head: Sample, rest: seq<Sample>)
    requires AtLeast(rest, Total(head)) && NeverFalls(rest)
    ensures NeverFalls([head] + rest)
    ensures forall floor :: floor <= Total(head) ==> AtLeast([head] + rest, floor)
  {
    var r := [head] + rest;
    assert r[1..] == rest;
    forall floor | floor <= Total(head)
      ensures AtLeast(r, floor)
    {
      forall m | 0 <= m < |r|
        ensures floor <= Total(r[m])
      {
        if m > 0 {
          assert r[m] == rest[m - 1];
        }
      }
    }
  }

  /** Helper for TotalNeverFalls: the samples from `year` on never shrink in total. */
  lemma {:induction false} ProjectGrowth(st: SimState, invs: seq<Investment>, toggles: map<string, bool>, annualSavings: real, inflationRate: real, year: int, last: int)
    requires Shaped(st, invs) && NonNegative(st.balances)
    requires inflationRate == 0.0 && annualSavings >= 0.0
    requires forall i :: 0 <= i < |invs| ==> invs[i].amount >= 0.0 && invs[i].annualReturn >= 0.0
    ensures AtLeast(Project(st, invs, toggles, annualSavings, inflationRate, year, last), Max(0.0, st.liquid) + Sum(st.balances))
    ensures NeverFalls(Project(st, invs, toggles, annualSavings, inflationRate, year, last))
    decreases if year <= last then last - year + 1 else 0
  {
    if year <= last {
      var next := YearStep(st, invs, toggles, annualSavings, inflationRate);
      YearStepGrowth(st, invs, toggles, annualSavings, inflationRate);
      ProjectGrowth(next, invs, toggles, annualSavings, inflationRate, year + 1, last);
      var rest := Project(next, invs, toggles, annualSavings, inflationRate, year + 1, last);
      var head := Sample(year, next.liquid, Sum(next.balances));
      assert Project(st, invs, toggles, annualSavings, inflationRate, year, last) == [head] + rest;
      assert Total(head) == Max(0.0, next.liquid) + Sum(next.balances);
      PrependNeverFalls(head, rest);
    }
  }

  /**
   * With no inflation, non-negative savings, amounts and returns, the
   * projected total (liquid plus invested) never falls: a later year's
   * total is at least an earlier year's.
   */
  lemma TotalNeverFalls(data: PrognoseData, monthlySavings: real, toggles: map<string, bool>)
    requires data.inflationRate == 0.0 && monthlySavings >= 0.0
    requires forall i :: 0 <= i < |data.investments| ==>
               data.investments[i].amount >= 0.0 && data.investments[i].annualReturn >= 0.0
    ensures NeverFalls(CalculatePrognose(data, monthlySavings, toggles))
  {
    PrognoseFromStart(data, monthlySavings, toggles);
    StartNeverFalls(data.investments, data.liquidAssets, toggles, monthlySavings * 12.0, data.inflationRate, data.yearsToProject);
  }

  /** Helper for TotalNeverFalls: the projection runs from the year-0 state. */
  lemma PrognoseFromStart(data: PrognoseData, monthlySavings: real, toggles: map<string, bool>)
    ensures CalculatePrognose(data, monthlySavings, toggles)
            == ProjectFrom(InitialState(data.investments, data.liquidAssets), data.investments, toggles,
                           monthlySavings * 12.0, data.inflationRate, data.yearsToProject)
  {
  }

  /** Helper for TotalNeverFalls: the same from the year-0 state of any investments and liquid capital. */
  lemma StartNeverFalls(invs: seq<Investment>, liquidAssets: real, toggles: map<string, bool>, annualSavings: real, inflationRate: real, last: int)
    requires inflationRate == 0.0 && annualSavings >= 0.0
    requires forall i :: 0 <= i < |invs| ==> invs[i].amount >= 0.0 && invs[i].annualReturn >= 0.0
    ensures NeverFalls(ProjectFrom(InitialState(invs, liquidAssets), invs, toggles, annualSavings, inflationRate, last))
  {
    var st := InitialState(invs, liquidAssets);
    InitialNonNegative(invs, liquidAssets);
    ProjectGrowth(st, invs, toggles, annualSavings, inflationRate, 1, last);
    PrependNeverFalls(Sample(0, Max(0.0, st.liquid), Sum(st.balances)), Project(st, invs, toggles, annualSavings, inflationRate, 1, last));
  }

  /** Helper for TotalNeverFalls: year 0 starts every balance at a non-negative amount. */
  lemma InitialNonNegative(invs: seq<Investment>, liquidAssets: real)
    requires forall i :: 0 <= i < |invs| ==> invs[i].amount >= 0.0
    ensures NonNegative(InitialState(invs, liquidAssets).balances)
  {
    var st := InitialState(invs, liquidAssets);
    forall i | 0 <= i < |invs|
      ensures st.balances[i] >= 0.0
    {
      assert invs[i].amount >= 0.0;
    }
  }

  /** Savings only, no investments, no inflation: liquid capital grows by 12 monthly savings a year. */
  lemma SavingsOnlyScenario()
    ensures CalculatePrognose(PrognoseData(0.0, 1000.0, [], 0.0, 3), 100.0, map[])
            == [Sample(0, 1000.0, 0.0), Sample(1, 2200.0, 0.0), Sample(2, 3400.0, 0.0), Sample(3, 4600.0, 0.0)]
  {
  }

  /**
   * A single one-time investment of all liquid capital, reinvesting its
   * return: liquid capital stays at 0 and the balance compounds once a
   * year (500 at 10 % becomes 550).
   */
  lemma OneTimeScenario(id: string, name: string, amount: real, ratePct: real)
    ensures var inv := Investment(id, name, amount, ratePct, OneTime, Some(true), None);
      CalculatePrognose(PrognoseData(0.0, amount, [inv], 0.0, 1), 0.0, map[])
      == [Sample(0, 0.0, amount), Sample(1, 0.0, Compounded(amount, ratePct))]
  {
    var inv := Investment(id, name, amount, ratePct, OneTime, Some(true), None);
    var invs := [inv];
    var st := InitialState(invs, amount);
    assert st.balances == [amount];
    var funded := FundMonths(st.(liquid := st.liquid + 0.0), invs, 1);
    FundMonthsBalances(st.(liquid := st.liquid + 0.0), invs, 1);
    assert funded.balances == [amount];
    var grown := ReturnsFrom(funded, invs, map[], 0);
    ReturnStep(funded, invs, map[]);
    var ret := PercentOf(amount, ratePct);
    assert YearReturns(funded.balances, invs) == [ret];
    assert grown.balances == [amount + ret];
    assert grown.liquid == 0.0;
  }

  /**
   * The year-0 clamp is only reported: 1000 invested once out of no liquid
   * capital shows liquid 0 in year 0, yet year 1 starts from -1000, so twelve
   * savings of 100 leave 200 and not the 1200 a clamped start would give.
   */
  lemma ClampOnlyReported()
    ensures CalculatePrognose(PrognoseData(0.0, 0.0, [Investment("a", "Fonds", 1000.0, 0.0, OneTime, Some(true), None)], 0.0, 1), 100.0, map[])
            == [Sample(0, 0.0, 1000.0), Sample(1, 200.0, 1000.0)]
  {
    var inv := Investment("a", "Fonds", 1000.0, 0.0, OneTime, Some(true), None);
    var invs := [inv];
    var st := InitialState(invs, 0.0);
    assert st.liquid == -1000.0 && st.balances == [1000.0];
    var saved := st.(liquid := st.liquid + 1200.0);
    var funded := FundMonths(saved, invs, 1);
    FundMonthsBalances(saved, invs, 1);
    assert funded.balances == [1000.0];
    assert funded.liquid == 200.0;
    var grown := ReturnsFrom(funded, invs, map[], 0);
    ReturnStep(funded, invs, map[]);
    assert YearReturns(funded.balances, invs) == [0.0];
    assert grown.balances == [1000.0];
    assert grown.liquid == 200.0;
  }

  /** The worked figures: 500 at 10 %, year 0 (0, 500), year 1 (0, 550). */
  lemma OneTimeScenarioExample()
    ensures CalculatePrognose(PrognoseData(0.0, 500.0, [Investment("a", "Fonds", 500.0, 10.0, OneTime, Some(true), None)], 0.0, 1), 0.0, map[])
            == [Sample(0, 0.0, 500.0), Sample(1, 0.0, 550.0)]
  {
    OneTimeScenario("a", "Fonds", 500.0, 10.0);
  }
}

=== FILE: real_sums.dfy ===
/** Sums of real sequences, the `reduce((sum, x) => sum + x, 0)` of the screens. */
module RealSums {

  function Max(a: real, b: real): (r: real)
    ensures r >= a && r >= b
    ensures r == a || r == b
  {
    if a >= b then a else b
  }

  /** Left-to-right sum; over exact reals the fold order does not matter. */
  function Sum(s: seq<real>): real
    decreases |s|
  {
    if |s| == 0 then 0.0 else Sum(s[..|s| - 1]) + s[|s| - 1]
  }

  /** A sum splits over concatenation. */
  lemma {:induction false} SumAppend(a: seq<real>, b: seq<real>)
    ensures Sum(a + b) == Sum(a) + Sum(b)
    decreases |b|
  {
    if |b| == 0 {
      assert a + b == a;
    } else {
      assert (a + b)[..|a + b| - 1] == a + b[..|b| - 1];
      SumAppend(a, b[..|b| - 1]);
    }
  }

  /** Peeling the first element off a sum. */
  lemma {:induction false} SumFront(s: seq<real>)
    requires |s| > 0
    ensures Sum(s) == s[0] + Sum(s[1..])
  {
    assert s == [s[0]] + s[1..];
    SumAppend([s[0]], s[1..]);
    assert Sum([s[0]]) == s[0] by { assert [s[0]][..0] == []; }
  }

  /** Replacing one element changes the sum by the difference. */
  lemma SumUpdate(s: seq<real>, i: int, v: real)
    requires 0 <= i < |s|
    ensures Sum(s[i := v]) == Sum(s) - s[i] + v
  {
    assert s == s[..i] + [s[i]] + s[i + 1..];
    assert s[i := v] == s[..i] + [v] + s[i + 1..];
    SumAppend(s[..i] + [s[i]], s[i + 1..]);
    SumAppend(s[..i], [s[i]]);
    SumAppend(s[..i] + [v], s[i + 1..]);
    SumAppend(s[..i], [v]);
    assert Sum([s[i]]) == s[i] by { assert [s[i]][..0] == []; }
    assert Sum([v]) == v by { assert [v][..0] == []; }
  }

  /** A sum of non-negative reals is non-negative. */
  lemma {:induction false} SumNonNeg(s: seq<real>)
    requires forall i :: 0 <= i < |s| ==> s[i] >= 0.0
    ensures Sum(s) >= 0.0
    decreases |s|
  {
    if |s| > 0 {
      SumNonNeg(s[..|s| - 1]);
    }
  }

  /** Sums are monotone in every element. */
  lemma {:induction false} SumMonotone(a: seq<real>, b: seq<real>)
    requires |a| == |b|
    requires forall i :: 0 <= i < |a| ==> a[i] <= b[i]
    ensures Sum(a) <= Sum(b)
    decreases |a|
  {
    if |a| > 0 {
      SumMonotone(a[..|a| - 1], b[..|b| - 1]);
    }
  }

  /** A common factor comes out of a sum. */
  lemma {:induction false} SumScale(a: seq<real>, b: seq<real>, c: real)
    requires |a| == |b|
    requires forall i :: 0 <= i < |a| ==> b[i] == a[i] * c
    ensures Sum(b) == Sum(a) * c
    decreases |a|
  {
    if |a| > 0 {
      SumScale(a[..|a| - 1], b[..|b| - 1], c);
    }
  }

  /** The sum of pointwise differences is the difference of the sums. */
  lemma {:induction false} SumMinus(a: seq<real>, b: seq<real>, d: seq<real>)
    requires |a| == |b| == |d|
    requires forall i :: 0 <= i < |a| ==> d[i] == a[i] - b[i]
    ensures Sum(d) == Sum(a) - Sum(b)
    decreases |a|
  {
    if |a| > 0 {
      SumMinus(a[..|a| - 1], b[..|b| - 1], d[..|d| - 1]);
    }
  }
}

=== FILE: return_summary.dfy ===
/**
 * The return summary of the prognosis screen: year-1 figures computed from
 * the entered amounts, and full-period figures from a yearly loop of its own
 * that is simpler than the projection's monthly simulation. Also the oak
 * stage shown next to the summary.
 */
module ReturnSummary {
  import opened Wrappers
  import opened FinanceTypes
  import opened Cadence
  import opened RealSums
  import Projection

  /** Nominal return, inflation loss on liquid capital, their difference, and a rate in percent. */
  datatype Figures = Figures(nominalReturn: real, inflationLoss: real, realReturn: real, realReturnRate: real)

  datatype Summary = Summary(year1: Figures, fullPeriod: Figures)

  /**
   * The summary's reinvest rule: only a toggle that is present and true
   * reinvests; a missing toggle pays out, whatever the investment's own flag.
   */
  predicate SummaryReinvests(toggles: map<string, bool>, inv: Investment)
    ensures SummaryReinvests(toggles, inv) <==> inv.id in toggles && Projection.Reinvests(toggles, inv)
  {
    inv.id in toggles && toggles[inv.id]
  }

  /** The entered amounts, one per investment. */
  function Amounts(invs: seq<Investment>): (r: seq<real>)
    ensures |r| == |invs|
    ensures forall i :: 0 <= i < |invs| ==> r[i] == invs[i].amount
  {
    seq(|invs|, i requires 0 <= i < |invs| => invs[i].amount)
  }

  /** The loop's starting balances: a one-time investment its amount, a recurring one nothing. */
  function StartAmounts(invs: seq<Investment>): (r: seq<real>)
    ensures |r| == |invs|
    ensures forall i :: 0 <= i < |invs| ==> r[i] == (if invs[i].frequency == OneTime then invs[i].amount else 0.0)
  {
    seq(|invs|, i requires 0 <= i < |invs| => if invs[i].frequency == OneTime then invs[i].amount else 0.0)
  }

  /** The loop's running state: liquid capital, one balance per investment, and the two accumulated sums. */
  datatype Tally = Tally(liquid: real, amounts: seq<real>, nominal: real, loss: real)

  /** Each year's contribution of every recurring investment: 12 months, 52 weeks or one payment. */
  function Contributions(invs: seq<Investment>): (r: seq<real>)
    ensures |r| == |invs|
    ensures forall i :: 0 <= i < |invs| ==> r[i] == ToYearly(invs[i].amount, invs[i].frequency)
  {
    seq(|invs|, i requires 0 <= i < |invs| => ToYearly(invs[i].amount, invs[i].frequency))
  }

  /** Balances after the contributions are paid in; no cap and no check against liquid capital. */
  function PaidIn(amounts: seq<real>, invs: seq<Investment>): (r: seq<real>)
    requires |amounts| == |invs|
    ensures |r| == |invs|
    ensures forall i :: 0 <= i < |invs| ==> r[i] == amounts[i] + ToYearly(invs[i].amount, invs[i].frequency)
    ensures Sum(r) == Sum(amounts) + Sum(Contributions(invs))
  {
    var cs := Contributions(invs);
    var r := seq(|invs|, i requires 0 <= i < |invs| => amounts[i] + cs[i]);
    SumMinus(r, cs, amounts);
    r
  }

  /** A return counts as paid out when it is non-zero and the investment does not reinvest. */
  function PayOut(ret: real, toggles: map<string, bool>, inv: Investment): real {
    if ret == 0.0 || SummaryReinvests(toggles, inv) then 0.0 else ret
  }

  /** What each investment pays out to liquid capital this year. */
  function PayOuts(rets: seq<real>, invs: seq<Investment>, toggles: map<string, bool>): (r: seq<real>)
    requires |rets| == |invs|
    ensures |r| == |invs|
    ensures forall i :: 0 <= i < |invs| ==> r[i] == PayOut(rets[i], toggles, invs[i])
  {
    seq(|invs|, i requires 0 <= i < |invs| => PayOut(rets[i], toggles, invs[i]))
  }

  /**
   * Balances after the return step: every return is first added, then a
   * paid-out one is taken away again.
   */
  function Kept(amounts: seq<real>, invs: seq<Investment>, toggles: map<string, bool>): (r: seq<real>)
    requires |amounts| == |invs|
    ensures |r| == |invs|
    ensures forall i :: 0 <= i < |invs| ==>
              r[i] == if SummaryReinvests(toggles, invs[i]) then Projection.Compounded(amounts[i], invs[i].annualReturn) else amounts[i]
    ensures Sum(r) == Sum(amounts) + Sum(Projection.YearReturns(amounts, invs))
                      - Sum(PayOuts(Projection.YearReturns(amounts, invs), invs, toggles))
  {
    var rets := Projection.YearReturns(amounts, invs);
    var outs := PayOuts(rets, invs, toggles);
    var grown := seq(|invs|, i requires 0 <= i < |invs| => amounts[i] + rets[i]);
    var r := seq(|invs|, i requires 0 <= i < |invs| => grown[i] - outs[i]);
    SumMinus(grown, rets, amounts);
    SumMinus(grown, outs, r);
    r
  }

  /**
   * One year of the loop: savings in, contributions out to the balances,
   * returns earned and paid out or kept, then inflation takes its share of
   * liquid capital, without any clamp at 0.
   */
  function YearOnce(t: Tally, invs: seq<Investment>, toggles: map<string, bool>, annualSavings: real, inflationRate: real): (r: Tally)
    requires |t.amounts| == |invs|
    ensures |r.amounts| == |invs|
    ensures r.nominal == t.nominal + Sum(Projection.YearReturns(PaidIn(t.amounts, invs), invs))
    ensures r.liquid + r.loss == t.liquid + annualSavings - Sum(Contributions(invs))
                                 + Sum(PayOuts(Projection.YearReturns(PaidIn(t.amounts, invs), invs), invs, toggles)) + t.loss
    ensures r.loss - t.loss == (r.liquid + r.loss - t.loss) * (inflationRate / 100.0)
    ensures forall i :: 0 <= i < |invs| ==>
              var paid := t.amounts[i] + ToYearly(invs[i].amount, invs[i].frequency);
              r.amounts[i] == if SummaryReinvests(toggles, invs[i]) then Projection.Compounded(paid, invs[i].annualReturn) else paid
  {
    var paid := PaidIn(t.amounts, invs);
    var rets := Projection.YearReturns(paid, invs);
    var liquid := t.liquid + annualSavings - Sum(Contributions(invs)) + Sum(PayOuts(rets, invs, toggles));
    var yearLoss := PercentOf(liquid, inflationRate);
    Tally(Projection.Deflate(liquid, inflationRate), Kept(paid, invs, toggles), t.nominal + Sum(rets), t.loss + yearLoss)
  }

  /** `years` rounds of the loop; none when `years` is 0 or negative. */
  function Period(t: Tally, invs: seq<Investment>, toggles: map<string, bool>, annualSavings: real, inflationRate: real, years: int): (r: Tally)
    requires |t.amounts| == |invs|
    ensures |r.amounts| == |invs|
    ensures inflationRate == 0.0 ==> r.loss == t.loss
    decreases years
  {
    if years <= 0 then t
    else Period(YearOnce(t, invs, toggles, annualSavings, inflationRate), invs, toggles, annualSavings, inflationRate, years - 1)
  }

  /** The rate in percent of `nominal` on `invested`, 0 when nothing is invested, less inflation. */
  function RealRate(nominal: real, invested: real, inflationRate: real): real {
    (if invested > 0.0 then nominal / invested * 100.0 else 0.0) - inflationRate
  }

  /** The year-1 nominal return: every investment's amount earning its rate once. */
  function Year1Nominal(invs: seq<Investment>): real {
    Sum(Projection.YearReturns(Amounts(invs), invs))
  }

  /**
   * The summary shown above the chart. Year 1 uses the entered amounts
   * directly; the full period runs its own loop; both report the year-1 rate.
   */
  function CalculateReturns(data: PrognoseData, annualSavings: real, toggles: map<string, bool>): (r: Summary)
    ensures r.year1.nominalReturn == Year1Nominal(data.investments)
    ensures r.year1.inflationLoss == PercentOf(data.liquidAssets, data.inflationRate)
    ensures r.year1.realReturn == r.year1.nominalReturn - r.year1.inflationLoss
    ensures r.fullPeriod.realReturn == r.fullPeriod.nominalReturn - r.fullPeriod.inflationLoss
    ensures r.fullPeriod.realReturnRate == r.year1.realReturnRate
    ensures Sum(Amounts(data.investments)) <= 0.0 ==> r.year1.realReturnRate == -data.inflationRate
    ensures Sum(Amounts(data.investments)) > 0.0 ==>
      (r.year1.realReturnRate + data.inflationRate) * Sum(Amounts(data.investments)) == r.year1.nominalReturn * 100.0
  {
    var invs := data.investments;
    var nominal1 := Year1Nominal(invs);
    var loss1 := PercentOf(data.liquidAssets, data.inflationRate);
    var rate := RealRate(nominal1, Sum(Amounts(invs)), data.inflationRate);
    var end := Period(Tally(data.liquidAssets, StartAmounts(invs), 0.0, 0.0), invs, toggles, annualSavings, data.inflationRate, data.yearsToProject);
    Summary(Figures(nominal1, loss1, nominal1 - loss1, rate),
            Figures(end.nominal, end.loss, end.nominal - end.loss, rate))
  }

  /** Liquid capital plus balances plus what inflation took, less the returns earned: what savings alone would have left. */
  function Capital(t: Tally): real {
    t.liquid + Sum(t.amounts) + t.loss - t.nominal
  }

  /** Every year of the loop accounts for each unit: what liquid capital and the balances gain is savings plus returns less inflation. */
  lemma YearAccounts(t: Tally, invs: seq<Investment>, toggles: map<string, bool>, annualSavings: real, inflationRate: real)
    requires |t.amounts| == |invs|
    ensures Capital(YearOnce(t, invs, toggles, annualSavings, inflationRate)) == Capital(t) + annualSavings
  {
    var paid := PaidIn(t.amounts, invs);
    assert Sum(Kept(paid, invs, toggles)) == Sum(paid) + Sum(Projection.YearReturns(paid, invs))
                                             - Sum(PayOuts(Projection.YearReturns(paid, invs), invs, toggles));
  }

  /** Over the whole period, the final capital is the start plus all savings plus all returns less all inflation losses. */
  lemma {:induction false} PeriodAccounts(t: Tally, invs: seq<Investment>, toggles: map<string, bool>, annualSavings: real, inflationRate: real, years: int)
    requires |t.amounts| == |invs|
    ensures Capital(Period(t, invs, toggles, annualSavings, inflationRate, years)) == Capital(t) + Repeated(years, annualSavings)
    decreases years
  {
    if years > 0 {
      var next := YearOnce(t, invs, toggles, annualSavings, inflationRate);
      YearAccounts(t, invs, toggles, annualSavings, inflationRate);
      PeriodAccounts(next, invs, toggles, annualSavings, inflationRate, years - 1);
      assert Period(t, invs, toggles, annualSavings, inflationRate, years) == Period(next, invs, toggles, annualSavings, inflationRate, years - 1);
    }
  }

  /** `x` added once per year, none for 0 or fewer years. */
  function Repeated(years: int, x: real): (r: real)
    ensures r == (if years > 0 then years else 0) as real * x
    decreases years
  {
    if years <= 0 then 0.0 else Repeated(years - 1, x) + x
  }

  /** The balances and the nominal sum never look at liquid capital, savings or inflation. */
  lemma {:induction false} PeriodIgnoresLiquid(t1: Tally, t2: Tally, invs: seq<Investment>, toggles: map<string, bool>,
                                               savings1: real, savings2: real, inflation1: real, inflation2: real, years: int)
    requires |t1.amounts| == |invs| && t2.amounts == t1.amounts && t2.nominal == t1.nominal
    ensures Period(t1, invs, toggles, savings1, inflation1, years).amounts == Period(t2, invs, toggles, savings2, inflation2, years).amounts
    ensures Period(t1, invs, toggles, savings1, inflation1, years).nominal == Period(t2, invs, toggles, savings2, inflation2, years).nominal
    decreases years
  {
    if years > 0 {
      PeriodIgnoresLiquid(YearOnce(t1, invs, toggles, savings1, inflation1), YearOnce(t2, invs, toggles, savings2, inflation2),
                          invs, toggles, savings1, savings2, inflation1, inflation2, years - 1);
    }
  }

  /**
   * The nominal returns of the summary do not depend on liquid capital,
   * savings or inflation: nothing in the loop limits contributions by the
   * money available.
   */
  lemma NominalIgnoresLiquidity(data: PrognoseData, annualSavings: real, toggles: map<string, bool>,
                                liquidAssets: real, otherSavings: real, inflationRate: real)
    ensures var other := CalculateReturns(data.(liquidAssets := liquidAssets, inflationRate := inflationRate), otherSavings, toggles);
      var r := CalculateReturns(data, annualSavings, toggles);
      other.fullPeriod.nominalReturn == r.fullPeriod.nominalReturn && other.year1.nominalReturn == r.year1.nominalReturn
  {
    var invs := data.investments;
    PeriodIgnoresLiquid(Tally(data.liquidAssets, StartAmounts(invs), 0.0, 0.0), Tally(liquidAssets, StartAmounts(invs), 0.0, 0.0),
                        invs, toggles, annualSavings, otherSavings, data.inflationRate, inflationRate, data.yearsToProject);
  }

  /** Without years to project the full-period figures are all 0. */
  lemma NoYearsNoFullPeriod(data: PrognoseData, annualSavings: real, toggles: map<string, bool>)
    requires data.yearsToProject <= 0
    ensures var r := CalculateReturns(data, annualSavings, toggles);
      r.fullPeriod.nominalReturn == 0.0 && r.fullPeriod.inflationLoss == 0.0 && r.fullPeriod.realReturn == 0.0
  {
  }

  /** Without inflation nothing is lost, in year 1 or over the period, and the real return is the nominal one. */
  lemma NoInflationNoLoss(data: PrognoseData, annualSavings: real, toggles: map<string, bool>)
    requires data.inflationRate == 0.0
    ensures var r := CalculateReturns(data, annualSavings, toggles);
      && r.year1.inflationLoss == 0.0 && r.year1.realReturn == r.year1.nominalReturn
      && r.fullPeriod.inflationLoss == 0.0 && r.fullPeriod.realReturn == r.fullPeriod.nominalReturn
  {
    var invs := data.investments;
    var end := Period(Tally(data.liquidAssets, StartAmounts(invs), 0.0, 0.0), invs, toggles, annualSavings, data.inflationRate, data.yearsToProject);
    assert end.loss == 0.0;
    assert CalculateReturns(data, annualSavings, toggles).fullPeriod.inflationLoss == end.loss;
  }

  /** Every investment is one-time and pays its return out. */
  predicate PayoutOnly(invs: seq<Investment>, toggles: map<string, bool>) {
    forall i :: 0 <= i < |invs| ==> invs[i].frequency == OneTime && !SummaryReinvests(toggles, invs[i])
  }

  /** Helper for SteadyPayout: with payouts only, the balances stay the entered amounts and each year earns the year-1 return. */
  lemma {:induction false} PeriodSteady(t: Tally, invs: seq<Investment>, toggles: map<string, bool>, annualSavings: real, inflationRate: real, years: int)
    requires t.amounts == Amounts(invs) && PayoutOnly(invs, toggles)
    ensures Period(t, invs, toggles, annualSavings, inflationRate, years).amounts == Amounts(invs)
    ensures Period(t, invs, toggles, annualSavings, inflationRate, years).nominal == t.nominal + Repeated(years, Year1Nominal(invs))
    decreases years
  {
    if years > 0 {
      var next := YearOnce(t, invs, toggles, annualSavings, inflationRate);
      var paid := PaidIn(t.amounts, invs);
      assert paid == t.amounts;
      assert Kept(paid, invs, toggles) == paid;
      PeriodSteady(next, invs, toggles, annualSavings, inflationRate, years - 1);
    }
  }

  /**
   * One-time investments that pay their returns out earn the same every
   * year: the full-period nominal return is the year-1 return times the
   * number of years.
   */
  lemma SteadyPayout(data: PrognoseData, annualSavings: real, toggles: map<string, bool>)
    requires PayoutOnly(data.investments, toggles)
    ensures var r := CalculateReturns(data, annualSavings, toggles);
      r.fullPeriod.nominalReturn == Repeated(data.yearsToProject, r.year1.nominalReturn)
  {
    var invs := data.investments;
    assert StartAmounts(invs) == Amounts(invs);
    var start := Tally(data.liquidAssets, StartAmounts(invs), 0.0, 0.0);
    PeriodSteady(start, invs, toggles, annualSavings, data.inflationRate, data.yearsToProject);
    var end := Period(start, invs, toggles, annualSavings, data.inflationRate, data.yearsToProject);
    assert CalculateReturns(data, annualSavings, toggles).fullPeriod.nominalReturn == end.nominal;
  }

  /** When every investment earns the same rate, the year-1 real rate is that rate less inflation. */
  lemma UniformRate(data: PrognoseData, annualSavings: real, toggles: map<string, bool>, ratePct: real)
    requires forall i :: 0 <= i < |data.investments| ==> data.investments[i].annualReturn == ratePct
    requires Sum(Amounts(data.investments)) > 0.0
    ensures CalculateReturns(data, annualSavings, toggles).year1.realReturnRate == ratePct - data.inflationRate
    ensures CalculateReturns(data, annualSavings, toggles).fullPeriod.realReturnRate == ratePct - data.inflationRate
  {
    var invs := data.investments;
    var amounts := Amounts(invs);
    var total := Sum(amounts);
    var c := ratePct / 100.0;
    var rets := Projection.YearReturns(amounts, invs);
    forall i | 0 <= i < |invs|
      ensures rets[i] == amounts[i] * c
    {
      assert invs[i].annualReturn == ratePct;
    }
    SumScale(amounts, rets, c);
    UniformShare(Year1Nominal(invs), total, ratePct);
    assert RealRate(Year1Nominal(invs), total, data.inflationRate) == ratePct - data.inflationRate;
  }

  /** Helper for UniformRate: a return that is the same share of every amount is that share of the total. */
  lemma UniformShare(nominal: real, total: real, ratePct: real)
    requires total > 0.0 && nominal == total * (ratePct / 100.0)
    ensures nominal / total * 100.0 == ratePct
  {
    assert nominal / total == ratePct / 100.0;
  }

  /** The simulator's and the summary's starting balances agree; only the simulator debits one-time amounts from liquid capital. */
  lemma SameStartBalances(invs: seq<Investment>, liquidAssets: real)
    ensures StartAmounts(invs) == Projection.InitialState(invs, liquidAssets).balances
  {
    var st := Projection.InitialState(invs, liquidAssets);
    assert |st.balances| == |invs|;
  }

  /**
   * The toggle map as the screen syncs it when the number of investments
   * changes: every investment gets an entry, `previous[id] ?? reinvestEnabled ?? true`.
   */
  function SyncToggles(previous: map<string, bool>, invs: seq<Investment>): (r: map<string, bool>)
    ensures r.Keys == Ids(invs)
    decreases |invs|
  {
    if |invs| == 0 then map[]
    else
      var front := invs[..|invs| - 1];
      var inv := invs[|invs| - 1];
      assert Ids(invs) == Ids(front) + {inv.id} by {
        assert forall i :: 0 <= i < |front| ==> front[i] == invs[i];
      }
      SyncToggles(previous, front)[inv.id := Projection.Reinvests(previous, inv)]
  }

  /** With distinct ids, every synced entry is the simulator's decision under the previous map. */
  lemma {:induction false} SyncKeepsDecisions(previous: map<string, bool>, invs: seq<Investment>)
    requires DistinctIds(invs)
    ensures forall i :: 0 <= i < |invs| ==> SyncToggles(previous, invs)[invs[i].id] == Projection.Reinvests(previous, invs[i])
    decreases |invs|
  {
    if |invs| > 0 {
      var front := invs[..|invs| - 1];
      var last := |invs| - 1;
      SyncKeepsDecisions(previous, front);
      forall i | 0 <= i < |invs|
        ensures SyncToggles(previous, invs)[invs[i].id] == Projection.Reinvests(previous, invs[i])
      {
        if i < last {
          assert front[i] == invs[i] && invs[i].id != invs[last].id;
        }
      }
    }
  }

  /** The ids of a list of investments. */
  function Ids(invs: seq<Investment>): set<string> {
    set i | 0 <= i < |invs| :: invs[i].id
  }

  /** No two investments share an id. */
  predicate DistinctIds(invs: seq<Investment>) {
    forall i, j :: 0 <= i < j < |invs| ==> invs[i].id != invs[j].id
  }

  /**
   * Once synced, the summary's rule and the simulator's rule agree on every
   * investment, and, for distinct ids, both still decide as before the sync.
   */
  lemma SyncedRulesAgree(previous: map<string, bool>, invs: seq<Investment>)
    ensures forall i :: 0 <= i < |invs| ==>
              SummaryReinvests(SyncToggles(previous, invs), invs[i]) == Projection.Reinvests(SyncToggles(previous, invs), invs[i])
    ensures DistinctIds(invs) ==> forall i :: 0 <= i < |invs| ==>
              SummaryReinvests(SyncToggles(previous, invs), invs[i]) == Projection.Reinvests(previous, invs[i])
  {
    if DistinctIds(invs) {
      SyncKeepsDecisions(previous, invs);
    }
  }

  /** Without a toggle the rules part: the simulator falls back to the investment's flag (default on), the summary pays out. */
  lemma MissingToggleRules(toggles: map<string, bool>, inv: Investment)
    requires inv.id !in toggles
    ensures !SummaryReinvests(toggles, inv)
    ensures Projection.Reinvests(toggles, inv) <==> inv.reinvestEnabled != Some(false)
  {
  }

  /** The toggle map and the investment list after a click on an investment's reinvest switch. */
  datatype Toggled = Toggled(toggles: map<string, bool>, investments: seq<Investment>)

  /**
   * A click on the reinvest switch of `id`: the toggle becomes the negation
   * of the summary's decision (a missing toggle counts as off, so it turns
   * on), and the same value is stored as the flag of every investment with
   * that id.
   */
  function ToggleReinvestment(toggles: map<string, bool>, invs: seq<Investment>, id: string): (r: Toggled)
    ensures r.toggles.Keys == toggles.Keys + {id}
    ensures r.toggles[id] <==> !(id in toggles && toggles[id])
    ensures forall k :: k in toggles && k != id ==> r.toggles[k] == toggles[k]
    ensures |r.investments| == |invs|
    ensures forall i :: 0 <= i < |invs| && invs[i].id == id ==>
              r.investments[i] == invs[i].(reinvestEnabled := Some(r.toggles[id]))
    ensures forall i :: 0 <= i < |invs| && invs[i].id != id ==> r.investments[i] == invs[i]
  {
    var newValue := !(id in toggles && toggles[id]);
    Toggled(toggles[id := newValue],
            seq(|invs|, i requires 0 <= i < |invs| =>
              if invs[i].id == id then invs[i].(reinvestEnabled := Some(newValue)) else invs[i]))
  }

  /**
   * After a click both rules agree on the clicked investment, now and after
   * the stored flags are reloaded without toggles, and the summary's
   * decision for it has flipped.
   */
  lemma ToggleFlipsDecision(toggles: map<string, bool>, invs: seq<Investment>, id: string, i: int)
    requires 0 <= i < |invs| && invs[i].id == id
    ensures var r := ToggleReinvestment(toggles, invs, id);
      && SummaryReinvests(r.toggles, invs[i]) == !SummaryReinvests(toggles, invs[i])
      && Projection.Reinvests(r.toggles, invs[i]) == SummaryReinvests(r.toggles, invs[i])
      && Projection.Reinvests(map[], r.investments[i]) == SummaryReinvests(r.toggles, invs[i])
  {
  }

  /** Two clicks on a switch that has a toggle restore both the toggle map and the summary's decisions. */
  lemma ToggleTwice(toggles: map<string, bool>, invs: seq<Investment>, id: string)
    requires id in toggles
    ensures ToggleReinvestment(ToggleReinvestment(toggles, invs, id).toggles, invs, id).toggles == toggles
  {
  }

  /** The picture next to the summary: a squirrel, or an oak at one of four stages, healthy or sick. */
  datatype Stage = Squirrel | Tree(level: int)

  datatype OakInfo = OakInfo(stage: Stage, isHealthy: bool)

  /**
   * A squirrel when the real rate is not positive; otherwise an oak whose
   * stage follows the chart's horizon (1, 5 and 10 years give stages 1 to 3,
   * anything else 4) and which is healthy from a real rate of 1 percent.
   */
  function OakStage(realReturnRate: real, chartSelectedYears: int): (r: OakInfo)
    ensures r.stage == Squirrel <==> realReturnRate <= 0.0
    ensures r.isHealthy <==> realReturnRate >= 1.0
    ensures r.stage.Tree? ==> 1 <= r.stage.level <= 4
    ensures r.stage.Tree? ==> (r.stage.level == 4 <==> chartSelectedYears !in {1, 5, 10})
    ensures realReturnRate > 0.0 ==>
      (chartSelectedYears == 1 ==> r.stage == Tree(1)) &&
      (chartSelectedYears == 5 ==> r.stage == Tree(2)) &&
      (chartSelectedYears == 10 ==> r.stage == Tree(3))
  {
    if realReturnRate <= 0.0 then OakInfo(Squirrel, false)
    else
      var healthy := realReturnRate >= 1.0;
      if chartSelectedYears == 1 then OakInfo(Tree(1), healthy)
      else if chartSelectedYears == 5 then OakInfo(Tree(2), healthy)
      else if chartSelectedYears == 10 then OakInfo(Tree(3), healthy)
      else OakInfo(Tree(4), healthy)
  }

  /** For a positive rate the stage depends on the horizon alone, grows with it, and health on the rate alone. */
  lemma OakSeparates(rate1: real, rate2: real, years1: int, years2: int)
    requires rate1 > 0.0 && rate2 > 0.0
    ensures OakStage(rate1, years1).stage == OakStage(rate2, years1).stage
    ensures OakStage(rate1, years1).isHealthy == OakStage(rate1, years2).isHealthy
    ensures years1 in {1, 5, 10} && years1 <= years2 ==> OakStage(rate1, years1).stage.level <= OakStage(rate1, years2).stage.level
  {
  }
}

=== FILE: sorting.dfy ===
/**
 * Descending sort by a numeric key, as `[...xs].sort((a, b) => key(b) - key(a))`
 * does with a stable sort: an insertion sort that places each element before
 * every later element of equal key.
 */
module Sorting {
  import ListOps

  /** Keys never increase from left to right. */
  ghost predicate NonIncreasing<T>(s: seq<T>, key: T -> real) {
    forall i, j :: 0 <= i < j < |s| ==> key(s[i]) >= key(s[j])
  }

  /** Whether an element's key is `k`: selects one group of ties. */
  function KeyIs<T>(key: T -> real, k: real): T -> bool {
    y => key(y) == k
  }

  /** Inserts `x` into a non-increasing list, ahead of the first element whose key is not larger. */
  function InsertDesc<T(==)>(x: T, s: seq<T>, key: T -> real): (r: seq<T>)
    requires NonIncreasing(s, key)
    ensures multiset(r) == multiset(s) + multiset{x}
    ensures NonIncreasing(r, key)
    ensures r[0] == x || (|s| > 0 && r[0] == s[0])
    decreases |s|
  {
    if |s| == 0 || key(s[0]) <= key(x) then [x] + s
    else
      var rest := InsertDesc(x, s[1..], key);
      assert s == [s[0]] + s[1..];
      assert key(s[0]) >= key(rest[0]);
      [s[0]] + rest
  }

  /**
   * Insertion is stable: within each group of equal keys, `x` comes first
   * and the list's own elements follow in their order.
   */
  lemma InsertKeepsTies<T>(x: T, s: seq<T>, key: T -> real)
    requires NonIncreasing(s, key)
    ensures forall k :: ListOps.Filter(InsertDesc(x, s, key), KeyIs(key, k))
                        == (if key(x) == k then [x] else []) + ListOps.Filter(s, KeyIs(key, k))
  {
    forall k
      ensures ListOps.Filter(InsertDesc(x, s, key), KeyIs(key, k))
              == (if key(x) == k then [x] else []) + ListOps.Filter(s, KeyIs(key, k))
    {
      InsertKeepsTiesOf(x, s, key, k);
    }
  }

  /** Helper for InsertKeepsTies: the same for the one group of key `k`. */
  lemma {:induction false} InsertKeepsTiesOf<T>(x: T, s: seq<T>, key: T -> real, k: real)
    requires NonIncreasing(s, key)
    ensures ListOps.Filter(InsertDesc(x, s, key), KeyIs(key, k))
            == (if key(x) == k then [x] else []) + ListOps.Filter(s, KeyIs(key, k))
    decreases |s|
  {
    var r := InsertDesc(x, s, key);
    if |s| == 0 || key(s[0]) <= key(x) {
      assert r == [x] + s && r[1..] == s;
    } else {
      var rest := InsertDesc(x, s[1..], key);
      InsertKeepsTiesOf(x, s[1..], key, k);
      assert r == [s[0]] + rest && r[1..] == rest;
      if key(x) == k {
        assert !KeyIs(key, k)(s[0]);
      }
    }
  }

  /** The list sorted by non-increasing key: a permutation of the input. */
  function SortDesc<T(==)>(s: seq<T>, key: T -> real): (r: seq<T>)
    ensures multiset(r) == multiset(s)
    ensures |r| == |s|
    ensures NonIncreasing(r, key)
    decreases |s|
  {
    if |s| == 0 then []
    else
      assert s == [s[0]] + s[1..];
      InsertDesc(s[0], SortDesc(s[1..], key), key)
  }

  /** Sorting is stable: each group of equal keys keeps its order from the input. */
  lemma {:induction false} SortKeepsTies<T>(s: seq<T>, key: T -> real)
    ensures forall k :: ListOps.Filter(SortDesc(s, key), KeyIs(key, k)) == ListOps.Filter(s, KeyIs(key, k))
    decreases |s|
  {
    if |s| > 0 {
      var sortedRest := SortDesc(s[1..], key);
      assert SortDesc(s, key) == InsertDesc(s[0], sortedRest, key);
      SortKeepsTies(s[1..], key);
      InsertKeepsTies(s[0], sortedRest, key);
    }
  }
}

=== FILE: wrappers.dfy ===
/** An optional value, standing in for TypeScript's `T | undefined`. */
module Wrappers {

  datatype Option<+T> = None | Some(value: T) {

    /** The value, or `default` when it is absent (TypeScript's `??`). */
    function GetOr(default: T): T {
      match this
      case Some(v) => v
      case None => default
    }
  }
}
